=== FILE: README.md ===
# Road generator and scenario writer — a Dafny model

This project models the road-candidate engine of a genetic road generator for
driving-simulator tests. It also models the pure, data-shaping part of the
scenario files the generator writes.

**Generator side** (`test_generator.py`):
- difficulty profiles;
- the candidate-point filter (segment length and turn angle);
- the road synthesiser with its fixed seeds and bounded retries;
- mutation, single-point recombination and the crossover retry loop;
- elite selection by a stable sort on fitness;
- the zero-guarded resize factor;
- the population bookkeeping of one generation.

**Scenario side** (`utils/dbc_xml_builder.py`, `utils/dbe_xml_builder.py`,
`utils/xml_creator.py`):
- an immutable element tree (tag, attributes, text, tail, children);
- the recursive pretty-printer `indent`;
- the conditional attribute building of `add_car`, `add_lane` and `add_obstacles`;
- the file-name suffixes;
- the mapping from one road individual to the builder calls of `build_xml`.

Everything is pure. The geometry the source takes from scipy, shapely and
`utils/validity_checks` becomes one record of uninterpreted functions
(`Geometry.Geometry`). `atan2` in degrees is an uninterpreted function with
range (-180, 180] (`Geometry.Atan2Degrees`). Random draws are parameters:
- integer offsets within the sampling square;
- coins, which are arbitrary reals (Python draws them in `[0, 1)`);
- a nondeterministic choice of two distinct indices.

Python's `str()` of a float is the parameter `fmt`.

Modules, one per file: `Base` (Option), `Text` (upper-casing, blanks, decimal
strings, indentation strings), `Profiles`, `Geometry`, `Candidates`,
`Operators`, `Selection`, `Evolution`, `Values` (dictionary values: truthiness,
`str`), `XmlTree`, `CriteriaBuilder`, `EnvironmentBuilder`, `XmlCreator`.

Decisions worth knowing:
- `_generate_random_point` returns `None` when its draws run out, and its
  callers use the result without checking it (test_generator.py:173-175 and
  223-226). That is an `AttributeError`. The model neither requires a non-`None`
  result nor treats `None` as a rejection: the caller's result becomes the error
  outcome `NoCandidate`, with a proof that it happens only after a draw
  sequence was exhausted.
- `MAX_TRIES / 5` and `MAX_TRIES / 10` are float divisions. The loops are
  written as `tries * 5 < MaxTries` and `tries * 10 < MaxTries`, which give
  exactly the same iterations.
- The segment-length test compares squared integer lengths. This is exact for
  integer points and equal to the float-norm test.
- The crossover never resets its cut index inside the outer retry loop. The
  model keeps this: coins are indexed by (try, cut), and a lemma shows that
  only the first try's coins can matter.
- The model follows the code as written, also where the code's own comments
  and docstrings suggest otherwise:
  - an exhausted candidate search returns `None` (test_generator.py:134-157),
    which every caller dereferences; the model makes this an error outcome
    (see above);
  - the `_mutation` docstring speaks of replacing one point
    (test_generator.py:210-211), but the code flips a coin for every point from
    index 2 on and may replace several (test_generator.py:217-237); it also
    sets fitness to 0 (test_generator.py:238);
  - the post-pass after road growth checks the curve of the points before
    the last one was dropped (test_generator.py:186-189);
  - `_crossover` never resets its cut index between outer tries
    (test_generator.py:253-273), so only one sweep of cut positions can
    recombine;
  - the comments at test_generator.py:363 and 369 say each rotated segment
    is resized to half the road length, but the resize factor
    `WIDTH_OF_STREET / length` (test_generator.py:339-347) scales it to the
    full street width.
- `participant.get("id") is "ego"` is modelled as string equality, which is
  what CPython does for these interned literals.

## Model

| member | source | states |
|---|---|---|
| Text.ToUpper | test_generator.py:109 | the upper-cased name has the input's length, and each character is the upper-case form of the input's character at the same position |
| Text.ToUpperIdempotent | test_generator.py:109 | upper-casing twice is upper-casing once, so a profile name already upper-cased is matched as is |
| Profiles.SetDifficulty | test_generator.py:108-132 | after upper-casing, EASY, MEDIUM and HARD set all six fields to their profile constants; any other name returns the configuration unchanged; a valid configuration stays valid |
| Profiles.NewConfig | test_generator.py:67-84 | a fresh generator's configuration is valid, and it is one of the three profiles or else exactly the constructor defaults |
| Profiles.NewDefaultConfig | test_generator.py:67 | the constructor's default difficulty "Easy" selects the EASY profile |
| Profiles.SetDifficultyIdempotent | test_generator.py:108-132 | applying a name twice equals applying it once, for every name and configuration |
| Profiles.SetDifficultyCaseInsensitive | test_generator.py:109-130 | a name and its upper-cased form select the same profile |
| Profiles.UnknownNameKeepsDefaults | test_generator.py:73-84 | an unknown name ("default") leaves the constructor defaults, which differ from the EASY profile |
| Profiles.MixedCaseNames | test_generator.py:109-130 | "easy", "Medium" and "hArD" select the EASY, MEDIUM and HARD profiles |
| Geometry.GetAngle | test_generator.py:53-61 | the turn angle lies in [0, 360) and is the raw atan2 difference, or that difference plus 360 when it is negative |
| Candidates.FoldBackRejected | test_generator.py:134-157 | a candidate placed on the penultimate point itself has turn angle 0 and is rejected by the 70..290 angle filter of `_generate_random_point` |
| Geometry.ResizeFactor | test_generator.py:339-347 | a zero length gives factor 0; otherwise factor times length equals the street width; a non-negative width and length give a non-negative factor |
| Candidates.GenerateRandomPoint | test_generator.py:134-157 | a returned point lies in the square of half-side MAX_SEGMENT_LENGTH around the last point, has length within [MIN, MAX] and a turn angle within [70, 290], and is the first accepted draw; None is returned exactly when all of the first MAX_TRIES/5 draws are rejected |
| Candidates.GrownExtend | test_generator.py:172-184 | a point that passed the filter against the last two points and all three growth checks extends a correctly grown list to a correctly grown list |
| Candidates.GrownPrefix | test_generator.py:172-184 | every prefix (of length two or more) of a correctly grown point list is itself correctly grown |
| Candidates.PostPass | test_generator.py:185-193 | the post-pass on the grown list: a returned road is the grown list, minus its last point exactly when the spline self-intersects, passes the full check on the spline of the grown list and has at least MIN_NODES points; None exactly when every such road is too short or the check fails |
| Candidates.GenerateRandomPoints | test_generator.py:159-193 | the loop grows a list from (1,0),(65,0) of at most MAX_NODES points, each added point passing the filter and the three growth checks against the points before it; a list shorter than MAX_NODES means the last MAX_TRIES + 1 proposals were all rejected; the result is the post-pass of that list; a returned road has between MIN_NODES and MAX_NODES points; NoCandidate only after some candidate search was exhausted |
| Operators.MutatePoint | test_generator.py:222-236 | the retry loop for one position changes at most that position; the written point is the proposal of the first of the at most MAX_TRIES/10 retries whose road passes both validity checks, and the list stays unchanged only when every retry's proposal fails them; NoCandidate only after an exhausted candidate search |
| Operators.Mutation | test_generator.py:209-239 | the result has the same length, file name and first two points, and fitness 0; a point whose coin is above 0.25 is kept, and every other point is what the retry loop writes on the list as it stood then (first valid retry, or unchanged when all fail); NoCandidate only after an exhausted candidate search |
| Operators.NoCoinNoChange | test_generator.py:218-219 | when every coin is above 0.25, the mutated individual differs from the input only in its fitness, which is 0 |
| Operators.Recombination | test_generator.py:276-304 | child 1 is parent 1 up to the cut (inclusive) followed by parent 2 after it, and child 2 the mirror; the lengths are swapped; every other field is copied from the respective parent |
| Operators.RecombinationInvolution | test_generator.py:285-302 | recombining the two children again at the same cut gives back the two parents |
| Operators.FirstFiringExists | test_generator.py:256-259 | if some cut in the sweep fires (its coin and both children's checks pass), there is a first such cut |
| Operators.InnerSweep | test_generator.py:256-272 | one sweep over the cut positions returns the recombination at the first firing cut, or reports no firing cut and ends at the smaller length |
| Operators.LaterTriesReturnParents | test_generator.py:253-256 | once the cut index has reached the smaller length, every later outer try returns the parents unchanged |
| Operators.CrossoverLoop | test_generator.py:253-274 | the outer retry loop returns either the parents unchanged or two children that pass all four validity checks |
| Operators.Crossover | test_generator.py:241-274 | the result is the two parents when no cut fires, otherwise the recombination at the first firing cut 1 <= s < min length, whose children pass all four validity checks |
| Operators.CrossoverOnlyFirstTryCounts | test_generator.py:253-273 | two coin sources that agree on the first try give the same crossover result |
| Selection.Insert | test_generator.py:331 | inserting one individual adds exactly that individual to the bag and grows the list by one |
| Selection.InsertSorted | test_generator.py:331 | inserting into a list sorted by fitness keeps it sorted |
| Selection.InsertStable | test_generator.py:331 | insertion puts the new individual ahead of the equal-fitness individuals and leaves their order unchanged |
| Selection.SortByFitness | test_generator.py:331 | the sort is a permutation, ordered by non-decreasing fitness, and stable: for every fitness value the individuals with that value keep their input order |
| Selection.TailNotBelow | test_generator.py:331-337 | in a sorted list nothing outside the first n individuals has lower fitness than the n-th |
| Selection.PrefixNotAbove | test_generator.py:331-336 | the first n of a sorted list are drawn from it, and nobody after them has lower fitness than the n-th |
| Selection.ChooseElite | test_generator.py:326-337 | exactly NUMBER_ELITES individuals, the prefix of the stable sort, sorted by fitness, drawn from the population, with nobody left out having lower fitness than the last elite |
| Evolution.CreateStartPopulation | test_generator.py:195-207 | the start population has POPULATION_SIZE individuals, the i-th built from the i-th successful run with fitness 0 and the shared file name |
| Evolution.Newcomer | test_generator.py:427-439 | the newcomer is built from the first successful synthesis run, with fitness 0 and the shared file name |
| Evolution.BredFromExtended | test_generator.py:448-458 | appending one more pair of children of two distinct members keeps the bred-from record of all earlier pairs |
| Evolution.Fill | test_generator.py:448-458 | the fill loop keeps the population as a prefix, adds exactly two per round, stops at POPULATION_SIZE or at most one above it, adds nothing to a full population, and every added pair is bred from two distinct earlier members |
| Evolution.GeneticAlgorithm | test_generator.py:441-470 | an empty population is seeded first; after filling, the next population is the elite of the filled one plus one newcomer, NUMBER_ELITES + 1 individuals |
| CriteriaBuilder.Root | utils/dbc_xml_builder.py:15-36 | the criteria root carries the schema attributes and holds environment, author "Michael Heine", version "1", participants, precondition, success and failure in that order, then what was appended later |
| CriteriaBuilder.DefineName | utils/dbc_xml_builder.py:38-44 | a `name` element holding the test's name becomes the root's last child; nothing else changes |
| CriteriaBuilder.WithEnvironmentSuffix | utils/dbc_xml_builder.py:51-52 | the stored name ends with ".dbe.xml"; a name that already does is unchanged, any other gets the suffix appended |
| CriteriaBuilder.WithEnvironmentSuffixIdempotent | utils/dbc_xml_builder.py:51-53 | adding the suffix twice is adding it once |
| CriteriaBuilder.EnvironmentName | utils/dbc_xml_builder.py:46-53 | only the environment element's text changes, and it ends with ".dbe.xml" |
| CriteriaBuilder.StepsPerSecond | utils/dbc_xml_builder.py:55-61 | a `stepsPerSecond` element holding `str(fps)` becomes the root's last child; nothing else changes |
| CriteriaBuilder.AiFreq | utils/dbc_xml_builder.py:63-69 | an `aiFrequency` element holding `str(frequency)` becomes the root's last child; nothing else changes |
| CriteriaBuilder.WaypointElement | utils/dbc_xml_builder.py:106-112 | a waypoint has a speedLimit attribute exactly when its speed limit is truthy, and no other attribute |
| CriteriaBuilder.MovementElement | utils/dbc_xml_builder.py:104-112 | one waypoint child per input waypoint, in input order |
| CriteriaBuilder.ParticipantElement | utils/dbc_xml_builder.py:85-112 | a participant carries its id and model and no other attribute, and has the initial state, the ai sensors and the movement as its three children |
| CriteriaBuilder.AddCar | utils/dbc_xml_builder.py:71-112 | exactly one participant is appended under participants; everything else is unchanged |
| CriteriaBuilder.CarWaypoints | utils/dbc_xml_builder.py:104-112 | the car's movement lists its waypoints in order, each with a speedLimit exactly when that limit is truthy |
| CriteriaBuilder.AddPrecondition | utils/dbc_xml_builder.py:114-130 | one vcPosition with the participant, x, y and tolerance attributes is appended, holding `not` around the speed bound of the same participant; everything else is unchanged |
| CriteriaBuilder.AddSuccessPoint | utils/dbc_xml_builder.py:132-141 | one position condition is appended under success; everything else is unchanged |
| CriteriaBuilder.AddFailureConditions | utils/dbc_xml_builder.py:159-167 | exactly one `or` is appended under failure, holding scDamage and then scLane for the same participant; everything else is unchanged |
| CriteriaBuilder.Save | utils/dbc_xml_builder.py:189-197 | the file name is the name plus ".dbc.xml" and the tree is the root pretty-printed from level 0 |
| CriteriaBuilder.SaveNamesDistinct | utils/dbc_xml_builder.py:197 | different names give different criteria file names |
| EnvironmentBuilder.Root | utils/dbe_xml_builder.py:13-26 | the environment root carries the schema attributes and holds author "Michael Heine", time of day "0" and lanes in that order, then what was appended later |
| EnvironmentBuilder.OptionalFieldsEmpty | utils/dbe_xml_builder.py:71-92 | nothing is appended for the optional keys exactly when none of their values is truthy |
| EnvironmentBuilder.OptionalFieldsSplit | utils/dbe_xml_builder.py:71-92 | the fragments follow the fixed key order: those of earlier keys come before those of later ones |
| EnvironmentBuilder.FalsyIsMissing | utils/dbe_xml_builder.py:59-92 | a falsy optional value (0, 0.0, False, "") writes the same tag as a missing one |
| EnvironmentBuilder.ObstacleTag | utils/dbe_xml_builder.py:56-92 | the tag always starts with `name x="…" y="…"`, and it is exactly that prefix when no optional value is truthy |
| EnvironmentBuilder.AddObstacles | utils/dbe_xml_builder.py:48-93 | exactly one obstacles container is appended to the root, with one child per obstacle in input order; the lanes are unchanged |
| EnvironmentBuilder.LaneElement | utils/dbe_xml_builder.py:103-112 | markings="true" exactly when markings is true; leftLanes and rightLanes exactly when the value is neither 0 nor None; one laneSegment per segment, in input order |
| EnvironmentBuilder.LaneCountSetIsTruthy | utils/dbe_xml_builder.py:106-109 | for a numeric lane count, "neither 0 nor None" is the same as truthy |
| EnvironmentBuilder.AddLane | utils/dbe_xml_builder.py:95-112 | exactly one lane is appended under lanes; everything else is unchanged |
| EnvironmentBuilder.Save | utils/dbe_xml_builder.py:114-122 | the file name is the name plus ".dbe.xml" and the tree is the root pretty-printed from level 0 |
| Values.TruthyNumbers | utils/dbe_xml_builder.py:104-109 | a number is truthy exactly when it is not equal to 0; None and strings never equal 0 |
| Values.Half | utils/xml_creator.py:72 | `width / 2` is a float whose double is the width |
| XmlTree.SetAttr | utils/dbc_xml_builder.py:123-126 | setting an attribute makes it read back as the new value, leaves every other attribute as it was, and changes nothing but the attributes |
| XmlTree.Indent | utils/dbc_xml_builder.py:169-187 | pretty-printing changes only texts and tails: tags, attributes, child counts and leaf texts are kept everywhere in the tree |
| XmlTree.IndentText | utils/dbc_xml_builder.py:175-178 | an element with children and blank text gets the next level's indentation as text; a non-blank text is kept |
| XmlTree.IndentTail | utils/dbc_xml_builder.py:179-187 | a blank tail on an element with children, or on a leaf below level 0, becomes this level's indentation; a non-blank tail is kept; a leaf at level 0 is returned unchanged |
| XmlTree.IndentChildTails | utils/dbc_xml_builder.py:181-184 | a child whose tail was blank ends at its own level, except the last child, which ends at the parent's level; non-blank child tails are kept |
| XmlTree.IndentIdempotent | utils/dbe_xml_builder.py:28-46 | pretty-printing an already pretty-printed tree changes nothing |
| XmlCreator.EnvironmentFor | utils/xml_creator.py:18-21 | the environment has one lane with markings over the control points, and an obstacles container only for a present, non-empty obstacle list |
| XmlCreator.BuildEnvironmentXml | utils/xml_creator.py:10-22 | the saved environment file is named with ".dbe.xml"; it has one lane with markings and one segment per control point, and an obstacles container with one child per obstacle exactly when the list is present and not empty |
| XmlCreator.AddCars | utils/xml_creator.py:47-48 | one participant per car, appended in input order; nothing else changes |
| XmlCreator.AddSuccessPoints | utils/xml_creator.py:49-50 | one success position per point, all for the same participant, appended in input order; nothing else changes |
| XmlCreator.Header | utils/xml_creator.py:42-46 | after the root-level calls, the environment names the environment file, the name, step rate and AI frequency are appended, and all condition lists are empty |
| XmlCreator.CriteriaFor | utils/xml_creator.py:42-52 | the builder calls leave the environment reference and the name, step rate and AI frequency of the header, one car per participant, one success position per point, one failure and one precondition |
| XmlCreator.CriteriaForContents | utils/xml_creator.py:42-52 | the criteria state holds the cars in order, the success points for the ego car in order, exactly one `or` failure for the ego car with lane "offroad", and exactly one precondition at the given position |
| XmlCreator.BuildCriteriaXml | utils/xml_creator.py:25-53 | the saved criteria file is named with ".dbc.xml" and differs from the builder's tree only in whitespace texts and tails |
| XmlCreator.LaidOut | utils/xml_creator.py:42-53 | any tree laid out like a builder state holding the calls' contents has the environment reference, the cars, success points, failure, precondition, name, step rate and frequency the calls put there |
| XmlCreator.CriteriaXmlContents | utils/xml_creator.py:25-53 | the saved criteria file has these same contents |
| XmlCreator.FindEgo | utils/xml_creator.py:74-78 | the result is the first participant whose id is "ego", or none exactly when no participant has that id |
| XmlCreator.Ego | utils/xml_creator.py:74-78 | the ego car is one of the participants and has id "ego" |
| XmlCreator.SuccessPointOf | utils/xml_creator.py:70-73 | the success point is the last control point, with half its width as tolerance |
| XmlCreator.CriteriaCallOf | utils/xml_creator.py:79-87 | the criteria call has all participants, the ego car, the one success point, the precondition at control point 1 with tolerance 3 for "ego", and speed bound 10 |
| XmlCreator.XmlCalls | utils/xml_creator.py:84-87 | both builder calls use the same name `file_name + str(iterator)`, as the criteria file name should match the environment file; the environment call gets the individual's control points, lanes and obstacles, and the criteria call its cars, its ego car and the one success point |
| XmlCreator.BuildXml | utils/xml_creator.py:56-87 | both files are named after `file_name + str(iterator)`, with ".dbe.xml" and ".dbc.xml" |
| XmlCreator.StemGetsSuffix | utils/xml_creator.py:69 | the stem ends in a digit, so the environment name stored in the criteria file gets the suffix appended |
| XmlCreator.BuildXmlWrites | utils/xml_creator.py:63-87 | the criteria file refers to the environment file written next to it, has one success position (the last control point, tolerance width/2, for "ego") and a precondition at control point 1 with tolerance 3 for "ego" |
| XmlCreator.FileNamesDistinct | utils/xml_creator.py:69 | for one base name, different indices give different environment file names |
| XmlCreator.BuildAllXml | utils/xml_creator.py:90-98 | one build_xml call per individual, in order, with its index as iterator; with a shared base name, all environment file names are distinct |
| Text.Indentation | utils/dbc_xml_builder.py:175 | the indentation is a line break followed by exactly four spaces per level |
| Text.IndentationStep | utils/dbc_xml_builder.py:175-178 | one level's indentation plus four spaces is the next level's indentation |
| Text.NatToString | utils/xml_creator.py:69 | `str` of a natural number is a non-empty string of digits with no leading zero |
| Text.ParseNatToString | utils/xml_creator.py:69 | reading the decimal string back gives the number |
| Text.NatToStringInjective | utils/xml_creator.py:69 | different numbers have different decimal strings |

## Left out

- `_bspline`, `_get_width_lines`, `convert_points_to_lines` and the checks of
  `utils/validity_checks` are fields of `Geometry.Geometry` with no properties.
  They are floating-point scipy and shapely work, or code that is not part of
  this model. The resize factor is the only part of `_get_width_lines` modelled.
- `get_angle`'s trigonometry: `atan2` in degrees is a parameter with range
  (-180, 180]; only the normalisation into [0, 360) is modelled.
- Randomness: `randint`, `random` and `sample` are parameters (draw
  sequences, coin sequences) or a nondeterministic choice. No distribution is
  modelled.
- Python's `str()` of a float is the parameter `fmt`. Shortest-repr printing is
  not modelled.
- Text.ToUpper: only ASCII letters, plus the two non-ASCII letters whose
  upper-case form is an ASCII letter, are upper-cased. Python's full Unicode
  case mapping is not modelled, because no other character can change whether
  a name matches EASY, MEDIUM or HARD.
- `_calculate_fitness_value`: a generator that `onTestFinished` never
  iterates, so fitness is never assigned.
- `onTestFinished`, `getTest`, `interface.py`, `utils/xml_to_bng_files.py`
  and `utils/plotter.py`: network, file system, subprocess and UI work.
- Console output (`print`, `colored`).
- `set_files_name`: the base file name is a parameter instead.
- `_spline_population`, `_add_width` and `_add_ego_car`: they annotate
  individuals with spline samples, per-point widths and the ego car path.
  Only the XML writers read these annotations, and `_spline_population`
  redoes all of them on a copy of the population right before
  `build_all_xml` (test_generator.py:462-463). `_spline_population` needs
  `_bspline`, so `XmlCreator.BuildAllXml` takes the annotated individuals as
  given.
- Evolution.Newcomer: the width and ego-car annotation that `_add_newcomer`
  applies to the newcomer (test_generator.py:437-438) is not modelled.
  `Operators.Individual` has no width or participants fields, and nothing
  in the modelled evolution reads them.
- `save_xml`'s file writing, directory creation and moving. Only the file
  name and the indented tree are modelled.
- `add_failure_damage` and `add_failure_lane`: the writer never calls them.
  `add_failure_conditions` covers the same two conditions.
- `dbc_xml_examplebuild.py` and `dbe_xml_examplebuild.py`: demo scripts that
  only call the builders.
- Evolution.Fill: individuals are values. In the source, `_mutation` edits its
  argument in place, and when `_crossover` returns the parents themselves
  those are the objects already in the population. A mutation can then also
  change a parent that is already in the list. The model keeps earlier members
  unchanged. Breeding is an abstract parameter: nothing ties it to
  `Operators.Crossover` followed by `Operators.Mutation`, and a failing
  candidate search inside a mutation, where `new_point.get` raises
  `AttributeError` in the source (test_generator.py:223-226), is not an
  outcome of the fill loop. `Operators.Mutation` models that failure on its
  own as NoCandidate.
- XmlCreator.BuildXml: it requires at least two control points, a numeric
  width on the last one and a participant with id "ego". Without these the
  source raises `IndexError`, `TypeError` or `AttributeError`.
- Evolution.CreateStartPopulation and Evolution.Newcomer: the source
  repeats synthesis until enough runs succeed, without bound. The model takes
  a finite sequence of run outcomes that contains enough successes.
- Evolution.GeneticAlgorithm: it requires a population that is not a single
  individual. With one member, `sample(range(0, 1), 2)` raises `ValueError`.
- Selection.ChooseElite: it requires at least NUMBER_ELITES individuals. On a
  smaller population the source raises `IndexError`.
- XmlCreator.BuildAllXml: it returns the builder calls, in order, rather than
  the files themselves. `XmlCreator.BuildXml` maps one call pair to its two
  files.

=== FILE: base.dfy ===
/** Small shared datatypes. */
module Base {

  /** An optional value: Python's `None` or a present value. */
  datatype Option<+T> = None | Some(value: T)

  /** `f` applied to each element, in order. */
  function Map<A, B>(f: A -> B, xs: seq<A>): (r: seq<B>)
    ensures |r| == |xs|
    ensures forall k :: 0 <= k < |xs| ==> r[k] == f(xs[k])
  {
    if |xs| == 0 then [] else [f(xs[0])] + Map(f, xs[1..])
  }

  /** A sequence one longer than `a` that starts with `a` is `a` plus its
      last element. */
  lemma SnocParts<T>(r: seq<T>, a: seq<T>)
    requires |r| == |a| + 1 && r[..|a|] == a
    ensures r == a + [r[|a|]]
  {
  }

  lemma ConcatAssoc<T>(a: seq<T>, b: seq<T>, c: seq<T>)
    ensures a + b + c == a + (b + c)
  {
  }

  lemma EmptyConcat<T>(a: seq<T>)
    ensures [] + a == a
  {
  }
}

=== FILE: candidates.dfy ===
/** Road synthesis: proposing one control point (`_generate_random_point`)
    and growing a whole road from two fixed seed points
    (`_generate_random_points`). */
module Candidates {
  import opened Base
  import opened Profiles
  import opened Geometry

  const MinDegrees := 70.0
  const MaxDegrees := 290.0

  /** The two points every road starts with; they fix the initial heading. */
  const Seed0 := Point(1, 0)
  const Seed1 := Point(65, 0)

  /** What a caller sees when it dereferences a point that
      `_generate_random_point` could not produce: the source raises an
      AttributeError, modelled as this error outcome. */
  datatype Outcome<+T> = Ok(value: T) | NoCandidate

  /** One `randint` draw per coordinate, as an offset from the last point. */
  type Offset = (int, int)

  /** The offset is inside the square of half-width `half`, the range of
      `randint(last - half, last + half)`. */
  predicate InSquare(d: Offset, half: int)
  {
    -half <= d.0 <= half && -half <= d.1 <= half
  }

  function Shift(p: Point, d: Offset): Point
  {
    Point(p.x + d.0, p.y + d.1)
  }

  /** `p` lies in the axis-parallel square of half-width `half` around `c`. */
  predicate InBox(p: Point, c: Point, half: int)
  {
    c.x - half <= p.x <= c.x + half && c.y - half <= p.y <= c.y + half
  }

  /** The segment from `last` to `p` is between the minimum and maximum segment
      length; compared on squared lengths, which for non-negative bounds is the
      same test as on the Euclidean norm. */
  predicate SegmentLengthOk(cfg: Config, last: Point, p: Point)
  {
    var dx := p.x - last.x;
    var dy := p.y - last.y;
    cfg.minSegmentLength * cfg.minSegmentLength <= dx * dx + dy * dy
      <= cfg.maxSegmentLength * cfg.maxSegmentLength
  }

  /** The acceptance filter of `_generate_random_point`. */
  predicate Acceptable(cfg: Config, atan2: Atan2Degrees, penultimate: Point, last: Point, p: Point)
  {
    && SegmentLengthOk(cfg, last, p)
    && MinDegrees <= GetAngle(atan2, penultimate, last, p) <= MaxDegrees
  }

  /** A candidate on the penultimate point itself folds the road back onto
      itself: its turn angle is 0, outside the 70..290 band, so the filter
      rejects it. */
  lemma FoldBackRejected(cfg: Config, atan2: Atan2Degrees, penultimate: Point, last: Point)
    ensures !Acceptable(cfg, atan2, penultimate, last, penultimate)
  {
    assert GetAngle(atan2, penultimate, last, penultimate) == 0.0;
  }

  /** Every draw the candidate search may make (those with `5 * t < MAX_TRIES`)
      is rejected. */
  ghost predicate Exhausted(cfg: Config, atan2: Atan2Degrees, penultimate: Point, last: Point, draw: nat -> Offset)
  {
    forall t: nat :: t * 5 < MaxTries ==> !Acceptable(cfg, atan2, penultimate, last, Shift(last, draw(t)))
  }

  /** `_generate_random_point`: draws up to MAX_TRIES/5 points in the square
      around `last` and returns the first that passes the length and angle
      filter, or `None` once every draw was rejected. Draw `t` is `draw(t)`. */
  method GenerateRandomPoint(cfg: Config, atan2: Atan2Degrees, last: Point, penultimate: Point, draw: nat -> Offset)
    returns (r: Option<Point>)
    requires forall t :: InSquare(draw(t), cfg.maxSegmentLength)
    ensures r.Some? ==> InBox(r.value, last, cfg.maxSegmentLength)
    ensures r.Some? ==> Acceptable(cfg, atan2, penultimate, last, r.value)
    ensures r.Some? ==> exists t: nat :: t * 5 < MaxTries && r.value == Shift(last, draw(t))
                          && forall u: nat :: u < t ==> !Acceptable(cfg, atan2, penultimate, last, Shift(last, draw(u)))
    ensures r.None? <==> Exhausted(cfg, atan2, penultimate, last, draw)
  {
    var tries: nat := 0;
    while tries * 5 < MaxTries
      invariant forall u: nat :: u < tries ==> !Acceptable(cfg, atan2, penultimate, last, Shift(last, draw(u)))
      decreases MaxTries - tries * 5
    {
      var point := Shift(last, draw(tries));
      if Acceptable(cfg, atan2, penultimate, last, point) {
        return Some(point);
      }
      tries := tries + 1;
    }
    return None;
  }

  /** The three checks that must all pass before `candidate` is appended while
      growing a road; the spline is sampled at 100 points. */
  predicate GrowthConflict(cfg: Config, geo: Geometry, points: seq<Point>, candidate: Point)
  {
    var spline := geo.bspline(cfg.splineDegree, points + [candidate], 100);
    || geo.intersectionCheckLast(points, candidate)
    || geo.splineIntersectionCheck(spline)
    || geo.intersectionCheckWidth(geo.widthLines(cfg.widthOfStreet, spline), geo.pointsToLines(spline))
  }

  /** Every point after the two seeds passed the candidate filter against its
      two predecessors and the growth checks against the road before it. */
  ghost predicate Grown(cfg: Config, geo: Geometry, atan2: Atan2Degrees, points: seq<Point>)
  {
    forall i :: 2 <= i < |points| ==>
      && InBox(points[i], points[i - 1], cfg.maxSegmentLength)
      && Acceptable(cfg, atan2, points[i - 2], points[i - 1], points[i])
      && !GrowthConflict(cfg, geo, points[..i], points[i])
  }

  /** The final gate: `grown` is the list the loop produced, `road` is what is
      returned. The last point is dropped exactly when the spline of `grown`
      self-intersects, and the full check runs on the spline of `grown`
      (computed before the drop). */
  ghost predicate FinalGate(cfg: Config, geo: Geometry, grown: seq<Point>, road: seq<Point>)
  {
    var spline := geo.bspline(cfg.splineDegree, grown, 100);
    && |grown| >= 1
    && (if geo.splineIntersectionCheck(spline) then road == grown[..|grown| - 1] else road == grown)
    && !geo.intersectionCheckAllNp(spline)
  }

  /** What a finished road looks like. */
  ghost predicate Road(cfg: Config, geo: Geometry, atan2: Atan2Degrees, road: seq<Point>)
  {
    && cfg.minNodes <= |road| <= cfg.maxNodes
    && |road| >= 2 && road[0] == Seed0 && road[1] == Seed1
    && Grown(cfg, geo, atan2, road)
    && exists grown :: FinalGate(cfg, geo, grown, road)
  }

  /** The post-pass of `_generate_random_points` on the list `grown` the loop
      produced: the last point is dropped when the spline of `grown`
      self-intersects, and the rest comes back unless it is shorter than
      MIN_NODES or the full check fails on that same spline. */
  function PostPass(cfg: Config, geo: Geometry, grown: seq<Point>): (r: Option<seq<Point>>)
    requires |grown| >= 1
    ensures r.Some? ==> FinalGate(cfg, geo, grown, r.value) && cfg.minNodes <= |r.value|
    ensures r.None? <==> forall road :: FinalGate(cfg, geo, grown, road) ==> |road| < cfg.minNodes
  {
    var spline := geo.bspline(cfg.splineDegree, grown, 100);
    var road := if geo.splineIntersectionCheck(spline) then grown[..|grown| - 1] else grown;
    assert FinalGate(cfg, geo, grown, road) <==> !geo.intersectionCheckAllNp(spline);
    if |road| < cfg.minNodes || geo.intersectionCheckAllNp(spline) then None else Some(road)
  }

  /** `p` is what the candidate search returns for the draws `d`: the first
      draw within the tries budget that passes the filter. */
  ghost predicate Proposal(cfg: Config, atan2: Atan2Degrees, penultimate: Point, last: Point, d: nat -> Offset, p: Point)
  {
    exists t: nat :: && t * 5 < MaxTries && p == Shift(last, d(t))
                     && Acceptable(cfg, atan2, penultimate, last, p)
                     && forall u: nat :: u < t ==> !Acceptable(cfg, atan2, penultimate, last, Shift(last, d(u)))
  }

  /** The draws of one candidate search propose at most one point: of two
      accepted draws, the later one is not the first. */
  lemma ProposalUnique(cfg: Config, atan2: Atan2Degrees, penultimate: Point, last: Point, d: nat -> Offset,
                       p: Point, q: Point)
    ensures Proposal(cfg, atan2, penultimate, last, d, p) && Proposal(cfg, atan2, penultimate, last, d, q) ==> p == q
  {
    if Proposal(cfg, atan2, penultimate, last, d, p) && Proposal(cfg, atan2, penultimate, last, d, q) {
      var t: nat :| && t * 5 < MaxTries && p == Shift(last, d(t))
                    && Acceptable(cfg, atan2, penultimate, last, p)
                    && forall u: nat :: u < t ==> !Acceptable(cfg, atan2, penultimate, last, Shift(last, d(u)));
      var s: nat :| && s * 5 < MaxTries && q == Shift(last, d(s))
                    && Acceptable(cfg, atan2, penultimate, last, q)
                    && forall u: nat :: u < s ==> !Acceptable(cfg, atan2, penultimate, last, Shift(last, d(u)));
      assert t == s;
    }
  }

  /** The proposal for the draws `d` against the last two points of
      `points` fails the growth checks. */
  ghost predicate Rejected(cfg: Config, geo: Geometry, atan2: Atan2Degrees, points: seq<Point>, d: nat -> Offset)
  {
    && |points| >= 2
    && exists p :: Proposal(cfg, atan2, points[|points| - 2], points[|points| - 1], d, p) && GrowthConflict(cfg, geo, points, p)
  }

  /** The `n` proposals before the `k`-th, those of the draws `draw(k - n)`
      to `draw(k - 1)`, were all rejected against `points`. */
  ghost predicate RecentlyRejected(cfg: Config, geo: Geometry, atan2: Atan2Degrees, points: seq<Point>,
                                   draw: nat -> nat -> Offset, k: nat, n: nat)
  {
    && n <= k
    && forall j: nat :: k - n <= j < k ==> Rejected(cfg, geo, atan2, points, draw(j))
  }

  /** One more rejected proposal extends the run of rejections. */
  lemma RejectedOneMore(cfg: Config, geo: Geometry, atan2: Atan2Degrees, points: seq<Point>,
                        draw: nat -> nat -> Offset, k: nat, n: nat)
    ensures RecentlyRejected(cfg, geo, atan2, points, draw, k, n) && Rejected(cfg, geo, atan2, points, draw(k))
            ==> RecentlyRejected(cfg, geo, atan2, points, draw, k + 1, n + 1)
  {
  }

  /** The loop gives up once `tries > MAX_TRIES`: after this many rejections
      in a row. */
  const StallLength: nat := MaxTries + 1

  /** The growth loop stopped short of MAX_NODES: the last MAX_TRIES + 1
      proposals were all rejected against the final list. */
  ghost predicate Stalled(cfg: Config, geo: Geometry, atan2: Atan2Degrees, grown: seq<Point>,
                          draw: nat -> nat -> Offset)
  {
    exists k: nat :: RecentlyRejected(cfg, geo, atan2, grown, draw, k, StallLength)
  }

  /** A point that passes the filter and the growth checks extends a grown
      road. */
  lemma GrownExtend(cfg: Config, geo: Geometry, atan2: Atan2Degrees, points: seq<Point>, p: Point)
    requires |points| >= 2 && Grown(cfg, geo, atan2, points)
    requires InBox(p, points[|points| - 1], cfg.maxSegmentLength)
    requires Acceptable(cfg, atan2, points[|points| - 2], points[|points| - 1], p)
    requires !GrowthConflict(cfg, geo, points, p)
    ensures Grown(cfg, geo, atan2, points + [p])
  {
    var next := points + [p];
    forall i | 2 <= i < |next|
      ensures && InBox(next[i], next[i - 1], cfg.maxSegmentLength)
              && Acceptable(cfg, atan2, next[i - 2], next[i - 1], next[i])
              && !GrowthConflict(cfg, geo, next[..i], next[i])
    {
      assert next[i - 2] == points[i - 2] && next[i - 1] == points[i - 1];
      if i < |points| {
        assert next[i] == points[i] && next[..i] == points[..i];
      } else {
        assert next[i] == p && next[..i] == points;
      }
    }
  }

  /** A prefix of a grown road is a grown road. */
  lemma GrownPrefix(cfg: Config, geo: Geometry, atan2: Atan2Degrees, points: seq<Point>, n: nat)
    requires Grown(cfg, geo, atan2, points)
    requires n <= |points|
    ensures Grown(cfg, geo, atan2, points[..n])
  {
    forall i | 2 <= i < n
      ensures points[..n][..i] == points[..i]
    {
    }
  }

  /** `_generate_random_points`: starts from the two seed points and keeps
      proposing candidates for the last point until the road has MAX_NODES
      points or more than MAX_TRIES proposals in a row were rejected; an
      accepted proposal resets the count. Then the last point is dropped if the
      spline self-intersects, and the road is returned unless it is too short
      or fails the full check (`None`, "Restarting"). The `k`-th call to the
      candidate search uses the draws `draw(k)`. */
  method GenerateRandomPoints(cfg: Config, geo: Geometry, atan2: Atan2Degrees, draw: nat -> nat -> Offset)
    returns (r: Outcome<Option<seq<Point>>>)
    requires ValidConfig(cfg)
    requires forall k, t :: InSquare(draw(k)(t), cfg.maxSegmentLength)
    ensures r.Ok? && r.value.Some? ==> Road(cfg, geo, atan2, r.value.value)
    ensures r.NoCandidate? ==> exists k: nat, a: Point, b: Point :: Exhausted(cfg, atan2, a, b, draw(k))
    ensures r.Ok? ==> exists grown :: && 2 <= |grown| <= cfg.maxNodes
                                      && grown[0] == Seed0 && grown[1] == Seed1
                                      && Grown(cfg, geo, atan2, grown)
                                      && (|grown| < cfg.maxNodes ==> Stalled(cfg, geo, atan2, grown, draw))
                                      && r.value == PostPass(cfg, geo, grown)
  {
    var points := [Seed0, Seed1];
    var tries: nat := 0;
    var k: nat := 0;
    while |points| != cfg.maxNodes && tries <= MaxTries
      invariant 2 <= |points| <= cfg.maxNodes
      invariant points[0] == Seed0 && points[1] == Seed1
      invariant Grown(cfg, geo, atan2, points)
      invariant tries <= MaxTries + 1
      invariant RecentlyRejected(cfg, geo, atan2, points, draw, k, tries)
      decreases cfg.maxNodes - |points|, MaxTries + 1 - tries
    {
      var last := points[|points| - 1];
      var penultimate := points[|points| - 2];
      var candidate := GenerateRandomPoint(cfg, atan2, last, penultimate, draw(k));
      if candidate.None? {
        return NoCandidate;
      }
      var p := candidate.value;
      assert Proposal(cfg, atan2, penultimate, last, draw(k), p);
      if !GrowthConflict(cfg, geo, points, p) {
        GrownExtend(cfg, geo, atan2, points, p);
        points := points + [p];
        tries := 0;
      } else {
        assert Rejected(cfg, geo, atan2, points, draw(k));
        RejectedOneMore(cfg, geo, atan2, points, draw, k, tries);
        tries := tries + 1;
      }
      k := k + 1;
    }
    var grown := points;
    assert |grown| < cfg.maxNodes ==> Stalled(cfg, geo, atan2, grown, draw) by {
      if |grown| < cfg.maxNodes {
        assert RecentlyRejected(cfg, geo, atan2, grown, draw, k, StallLength);
      }
    }
    var spline := geo.bspline(cfg.splineDegree, points, 100);
    if geo.splineIntersectionCheck(spline) {
      points := points[..|points| - 1];
    }
    if |points| < cfg.minNodes || geo.intersectionCheckAllNp(spline) {
      return Ok(None);
    }
    GrownPrefix(cfg, geo, atan2, grown, |points|);
    assert grown[..|points|] == points;
    assert FinalGate(cfg, geo, grown, points);
    return Ok(Some(points));
  }
}

=== FILE: criteria_builder.dfy ===
/** The criteria-file builder (`DBCBuilder`): an immutable record of the
    elements the builder keeps handles to, and one function per builder
    call returning the updated record. */
module CriteriaBuilder {
  import opened Base
  import opened Text
  import opened Values
  import opened XmlTree
  import EnvironmentBuilder

  const EnvironmentSuffix := EnvironmentBuilder.Suffix
  const CriteriaSuffix := ".dbc.xml"

  /** The root's fixed children the builder writes into, and the children
      appended to the root later (name, steps per second, AI frequency). */
  datatype Criteria = Criteria(
    environment: Element,
    participants: Element,
    preconditions: Element,
    success: Element,
    failure: Element,
    extras: seq<Element>)

  /** The car's initial state (`init_state`); a missing key is `NoneV`. */
  datatype InitState = InitState(x: Value, y: Value, orientation: Value, movementMode: Value, speed: Value)

  /** One waypoint of a car; `speedLimit` is optional. */
  datatype Waypoint = Waypoint(x: Value, y: Value, tolerance: Value, movementMode: Value, speedLimit: Value)

  /** A participant dictionary as `add_car` reads it. */
  datatype Participant = Participant(id: string, initState: InitState, waypoints: seq<Waypoint>, model: string)

  /** A circle `(x, y, tolerance)` the ego car has to reach. */
  datatype SuccessPoint = SuccessPoint(x: Value, y: Value, tolerance: Value)

  /** The precondition position: participant id and a circle. */
  datatype VcPos = VcPos(id: string, x: Value, y: Value, tolerance: Value)

  /** The state right after construction: every handle is an empty element. */
  function NewCriteria(): Criteria
  {
    Criteria(NewElement("environment"), NewElement("participants"), NewElement("precondition"),
             NewElement("success"), NewElement("failure"), [])
  }

  /** The tree the builder has assembled: the fixed children in construction
      order, then whatever was appended to the root. */
  function Root(b: Criteria): (r: Element)
    ensures r.tag == "criteria" && r.attrib == SchemaAttributes()
    ensures |r.children| == 7 + |b.extras|
    ensures r.children[0] == b.environment && r.children[3] == b.participants
    ensures r.children[1] == TextElement("author", "Michael Heine") && r.children[2] == TextElement("version", "1")
    ensures r.children[4] == b.preconditions && r.children[5] == b.success && r.children[6] == b.failure
    ensures r.children[7..] == b.extras
  {
    Element("criteria", SchemaAttributes(), None, None,
            [b.environment, TextElement("author", "Michael Heine"), TextElement("version", "1"),
             b.participants, b.preconditions, b.success, b.failure] + b.extras)
  }

  /** `define_name`: a `name` element with the test's name becomes the
      root's last child; nothing else changes. */
  function DefineName(b: Criteria, name: string): (r: Criteria)
    ensures Root(r).children == Root(b).children + [TextElement("name", name)]
    ensures Root(r).(children := Root(b).children) == Root(b)
    ensures r.(extras := b.extras) == b
  {
    b.(extras := b.extras + [TextElement("name", name)])
  }

  /** The file name `environment_name` stores: the suffix is added unless it
      is already there. */
  function WithEnvironmentSuffix(name: string): (r: string)
    ensures EndsWith(r, EnvironmentSuffix)
    ensures EndsWith(name, EnvironmentSuffix) ==> r == name
    ensures !EndsWith(name, EnvironmentSuffix) ==> r == name + EnvironmentSuffix
  {
    if EndsWith(name, EnvironmentSuffix) then name
    else
      EndsWithAppended(name, EnvironmentSuffix);
      name + EnvironmentSuffix
  }

  /** Adding the suffix twice is adding it once. */
  lemma WithEnvironmentSuffixIdempotent(name: string)
    ensures WithEnvironmentSuffix(WithEnvironmentSuffix(name)) == WithEnvironmentSuffix(name)
  {
  }

  /** `environment_name`: the environment element's text becomes the
      environment file name; nothing else changes. */
  function EnvironmentName(b: Criteria, dbeFileName: string): (r: Criteria)
    ensures r.environment.text == Some(WithEnvironmentSuffix(dbeFileName))
    ensures EndsWith(r.environment.text.value, EnvironmentSuffix)
    ensures r.(environment := b.environment) == b
    ensures r.environment.(text := b.environment.text) == b.environment
  {
    b.(environment := b.environment.(text := Some(WithEnvironmentSuffix(dbeFileName))))
  }

  /** `steps_per_second`: a `stepsPerSecond` element holding `str(fps)`
      becomes the root's last child; nothing else changes. */
  function StepsPerSecond(b: Criteria, fps: Value, fmt: FloatFormat): (r: Criteria)
    ensures Root(r).children == Root(b).children + [TextElement("stepsPerSecond", Str(fps, fmt))]
    ensures Root(r).(children := Root(b).children) == Root(b)
    ensures r.(extras := b.extras) == b
  {
    b.(extras := b.extras + [TextElement("stepsPerSecond", Str(fps, fmt))])
  }

  /** `ai_freq`: an `aiFrequency` element holding `str(frequency)` becomes
      the root's last child; nothing else changes. */
  function AiFreq(b: Criteria, frequency: Value, fmt: FloatFormat): (r: Criteria)
    ensures Root(r).children == Root(b).children + [TextElement("aiFrequency", Str(frequency, fmt))]
    ensures Root(r).(children := Root(b).children) == Root(b)
    ensures r.(extras := b.extras) == b
  {
    b.(extras := b.extras + [TextElement("aiFrequency", Str(frequency, fmt))])
  }

  /** The initial-state child: every value is rendered inside the tag string. */
  function InitialStateTag(s: InitState, fmt: FloatFormat): string
  {
    "initialState" + Field("x", Str(s.x, fmt)) + Field("y", Str(s.y, fmt))
      + Field("orientation", Str(s.orientation, fmt)) + Field("movementMode", Str(s.movementMode, fmt))
      + Field("speed", Str(s.speed, fmt))
  }

  /** The `ai` child with its two fixed sensors. */
  function AiElement(): Element
  {
    Element("ai", [], None, None,
            [NewElement("roadCenterDistance" + Field("id", "egoLaneDist")),
             NewElement("camera" + Field("width", "600") + Field("height", "400") + Field("fov", "120")
                        + Field("direction", "FRONT") + Field("id", "egoFrontCamera"))])
  }

  function WaypointTag(w: Waypoint, fmt: FloatFormat): string
  {
    "waypoint" + Field("x", Str(w.x, fmt)) + Field("y", Str(w.y, fmt))
      + Field("tolerance", Str(w.tolerance, fmt)) + Field("movementMode", Str(w.movementMode, fmt))
  }

  /** One waypoint element: a `speedLimit` attribute exactly when the limit
      is truthy, and no other attribute. */
  function WaypointElement(w: Waypoint, fmt: FloatFormat): (r: Element)
    ensures r.tag == WaypointTag(w, fmt) && r.children == []
    ensures Truthy(w.speedLimit) ==> Lookup(r.attrib, "speedLimit") == Some(Str(w.speedLimit, fmt))
    ensures !Truthy(w.speedLimit) ==> r.attrib == []
    ensures forall k :: k != "speedLimit" ==> Lookup(r.attrib, k) == None
  {
    var e := NewElement(WaypointTag(w, fmt));
    if Truthy(w.speedLimit) then SetAttr(e, "speedLimit", Str(w.speedLimit, fmt)) else e
  }

  /** The `movement` child: one waypoint element per waypoint, in order. */
  function MovementElement(waypoints: seq<Waypoint>, fmt: FloatFormat): (r: Element)
    ensures r.tag == "movement" && r.attrib == []
    ensures |r.children| == |waypoints|
    ensures forall k :: 0 <= k < |waypoints| ==> r.children[k] == WaypointElement(waypoints[k], fmt)
  {
    Element("movement", [], None, None,
            seq(|waypoints|, k requires 0 <= k < |waypoints| => WaypointElement(waypoints[k], fmt)))
  }

  /** The `participant` element of one car. */
  function ParticipantElement(p: Participant, fmt: FloatFormat): (r: Element)
    ensures r.tag == "participant"
    ensures Lookup(r.attrib, "id") == Some(p.id) && Lookup(r.attrib, "model") == Some(p.model)
    ensures forall k :: k != "id" && k != "model" ==> Lookup(r.attrib, k) == None
    ensures |r.children| == 3
    ensures r.children[0] == NewElement(InitialStateTag(p.initState, fmt))
    ensures r.children[1] == AiElement()
    ensures r.children[2] == MovementElement(p.waypoints, fmt)
  {
    var e := SetAttr(SetAttr(NewElement("participant"), "id", p.id), "model", p.model);
    e.(children := [NewElement(InitialStateTag(p.initState, fmt)), AiElement(), MovementElement(p.waypoints, fmt)])
  }

  /** `add_car`: one more participant under `participants`; nothing else
      changes. */
  function AddCar(b: Criteria, p: Participant, fmt: FloatFormat): (r: Criteria)
    ensures |r.participants.children| == |b.participants.children| + 1
    ensures r.participants.children[..|b.participants.children|] == b.participants.children
    ensures r.participants.children[|b.participants.children|] == ParticipantElement(p, fmt)
    ensures r.(participants := b.participants) == b
  {
    b.(participants := Append(b.participants, ParticipantElement(p, fmt)))
  }

  /** The car `add_car` writes lists the car's waypoints in order, each
      carrying a speed limit exactly when the input has a truthy one. */
  lemma CarWaypoints(p: Participant, fmt: FloatFormat)
    ensures var movement := ParticipantElement(p, fmt).children[2];
            && |movement.children| == |p.waypoints|
            && forall k :: 0 <= k < |p.waypoints| ==>
                 && movement.children[k].tag == WaypointTag(p.waypoints[k], fmt)
                 && (Lookup(movement.children[k].attrib, "speedLimit").Some? <==> Truthy(p.waypoints[k].speedLimit))
  {
  }

  /** The attributes `add_precond_partic_sc_speed` sets on the position,
      one after the other. */
  function VcPositionAttributes(v: VcPos, fmt: FloatFormat): (r: seq<(string, string)>)
    ensures Lookup(r, "participant") == Some(v.id)
    ensures Lookup(r, "x") == Some(Str(v.x, fmt))
    ensures Lookup(r, "y") == Some(Str(v.y, fmt))
    ensures Lookup(r, "tolerance") == Some(Str(v.tolerance, fmt))
  {
    var a1 := Update([], "participant", v.id);
    var a2 := Update(a1, "x", Str(v.x, fmt));
    var a3 := Update(a2, "y", Str(v.y, fmt));
    Update(a3, "tolerance", Str(v.tolerance, fmt))
  }

  function ScSpeedTag(id: string, scSpeed: Value, fmt: FloatFormat): string
  {
    "scSpeed" + Field("participant", id) + Field("limit", Str(scSpeed, fmt))
  }

  /** `add_precond_partic_sc_speed`: a `vcPosition` element for the circle,
      holding `not` around the speed bound for the same participant. */
  function AddPrecondition(b: Criteria, v: VcPos, scSpeed: Value, fmt: FloatFormat): (r: Criteria)
    ensures |r.preconditions.children| == |b.preconditions.children| + 1
    ensures r.preconditions.children[..|b.preconditions.children|] == b.preconditions.children
    ensures var pos := r.preconditions.children[|b.preconditions.children|];
            && pos.tag == "vcPosition"
            && Lookup(pos.attrib, "participant") == Some(v.id)
            && Lookup(pos.attrib, "x") == Some(Str(v.x, fmt))
            && Lookup(pos.attrib, "y") == Some(Str(v.y, fmt))
            && Lookup(pos.attrib, "tolerance") == Some(Str(v.tolerance, fmt))
            && pos.children == [Element("not", [], None, None, [NewElement(ScSpeedTag(v.id, scSpeed, fmt))])]
    ensures r.(preconditions := b.preconditions) == b
  {
    var notTag := Append(NewElement("not"), NewElement(ScSpeedTag(v.id, scSpeed, fmt)));
    b.(preconditions := Append(b.preconditions, Element("vcPosition", VcPositionAttributes(v, fmt), None, None, [notTag])))
  }

  function SuccessTag(participantId: string, p: SuccessPoint, fmt: FloatFormat): string
  {
    "scPosition" + Field("participant", participantId) + Field("x", Str(p.x, fmt))
      + Field("y", Str(p.y, fmt)) + Field("tolerance", Str(p.tolerance, fmt))
  }

  /** `add_success_point`: one more position condition under `success`. */
  function AddSuccessPoint(b: Criteria, participantId: string, p: SuccessPoint, fmt: FloatFormat): (r: Criteria)
    ensures r.success.children == b.success.children + [NewElement(SuccessTag(participantId, p, fmt))]
    ensures r.(success := b.success) == b
  {
    b.(success := Append(b.success, NewElement(SuccessTag(participantId, p, fmt))))
  }

  function DamageTag(participantId: string): string
  {
    "scDamage" + Field("participant", participantId)
  }

  function LaneTag(participantId: string, lane: string): string
  {
    "scLane" + Field("participant", participantId) + Field("onLane", lane)
  }

  /** `add_failure_conditions`: exactly one `or` under `failure`, holding the
      damage condition and then the lane condition for the same participant. */
  function AddFailureConditions(b: Criteria, participantId: string, lane: string): (r: Criteria)
    ensures |r.failure.children| == |b.failure.children| + 1
    ensures r.failure.children[..|b.failure.children|] == b.failure.children
    ensures var orTag := r.failure.children[|b.failure.children|];
            && orTag.tag == "or" && orTag.attrib == []
            && orTag.children == [NewElement(DamageTag(participantId)), NewElement(LaneTag(participantId, lane))]
    ensures r.(failure := b.failure) == b
  {
    var orTag := Append(Append(NewElement("or"), NewElement(DamageTag(participantId))),
                        NewElement(LaneTag(participantId, lane)));
    b.(failure := Append(b.failure, orTag))
  }

  /** The file-name and tree part of `save_xml`: the tree is pretty-printed
      from level 0 and the file is named after `name` with the criteria
      suffix. */
  function Save(b: Criteria, name: string): (r: SavedXml)
    ensures r.fileName == name + CriteriaSuffix
    ensures EndsWith(r.fileName, CriteriaSuffix)
    ensures r.tree == Indent(Root(b), 0)
  {
    EndsWithAppended(name, CriteriaSuffix);
    SavedXml(name + CriteriaSuffix, Indent(Root(b), 0))
  }

  /** Different names give different criteria files. */
  lemma SaveNamesDistinct(b1: Criteria, n1: string, b2: Criteria, n2: string)
    requires n1 != n2
    ensures Save(b1, n1).fileName != Save(b2, n2).fileName
  {
    assert n1 == (n1 + CriteriaSuffix)[..|n1|];
  }
}

=== FILE: environment_builder.dfy ===
/** The environment-file builder (`DBEBuilder`): lanes with their segments,
    and the obstacles container. */
module EnvironmentBuilder {
  import opened Base
  import opened Text
  import opened Values
  import opened XmlTree

  const Suffix := ".dbe.xml"

  /** The `lanes` element the builder keeps a handle to, and the children
      appended to the root later (the obstacles container). */
  datatype Environment = Environment(lanes: Element, extras: seq<Element>)

  /** One road segment (a control point with its width). */
  datatype Segment = Segment(x: Value, y: Value, width: Value)

  /** An obstacle dictionary: a name, a position and eleven optional keys. */
  datatype Obstacle = Obstacle(
    name: string, x: Value, y: Value,
    z: Value, xRot: Value, yRot: Value, zRot: Value,
    width: Value, length: Value, height: Value,
    radius: Value, baseRadius: Value, upperWidth: Value, upperLength: Value)

  /** The optional obstacle keys, in the order their fragments are written. */
  const OptionalKeys: seq<string> :=
    ["z", "xRot", "yRot", "zRot", "width", "length", "height", "radius", "baseRadius", "upperWidth", "upperLength"]

  function OptionalValues(o: Obstacle): (r: seq<Value>)
    ensures |r| == |OptionalKeys|
  {
    [o.z, o.xRot, o.yRot, o.zRot, o.width, o.length, o.height, o.radius, o.baseRadius, o.upperWidth, o.upperLength]
  }

  function NewEnvironment(): Environment
  {
    Environment(NewElement("lanes"), [])
  }

  /** The assembled tree: author, time of day, lanes, then the appended
      children. */
  function Root(env: Environment): (r: Element)
    ensures r.tag == "environment" && r.attrib == SchemaAttributes()
    ensures |r.children| == 3 + |env.extras|
    ensures r.children[0] == TextElement("author", "Michael Heine") && r.children[1] == TextElement("timeOfDay", "0")
    ensures r.children[2] == env.lanes && r.children[3..] == env.extras
  {
    Element("environment", SchemaAttributes(), None, None,
            [TextElement("author", "Michael Heine"), TextElement("timeOfDay", "0"), env.lanes] + env.extras)
  }

  /** The attribute fragments of the optional keys: each key whose value is
      truthy contributes ` key="value"`, in key order; falsy ones contribute
      nothing. */
  function OptionalFields(keys: seq<string>, values: seq<Value>, fmt: FloatFormat): string
    requires |keys| == |values|
  {
    if |keys| == 0 then ""
    else
      (if Truthy(values[0]) then Field(keys[0], Str(values[0], fmt)) else "")
      + OptionalFields(keys[1..], values[1..], fmt)
  }

  /** Nothing is written exactly when no optional value is truthy. */
  lemma {:induction false} OptionalFieldsEmpty(keys: seq<string>, values: seq<Value>, fmt: FloatFormat)
    requires |keys| == |values|
    ensures OptionalFields(keys, values, fmt) == "" <==> forall k :: 0 <= k < |values| ==> !Truthy(values[k])
  {
    if |keys| > 0 {
      OptionalFieldsEmpty(keys[1..], values[1..], fmt);
      assert forall k :: 1 <= k < |values| ==> values[k] == values[1..][k - 1];
    }
  }

  /** The fragments keep the key order: those of an earlier block of keys
      all come before those of a later one. */
  lemma {:induction false} OptionalFieldsSplit(keys: seq<string>, values: seq<Value>, n: nat, fmt: FloatFormat)
    requires |keys| == |values| && n <= |keys|
    ensures OptionalFields(keys, values, fmt)
         == OptionalFields(keys[..n], values[..n], fmt) + OptionalFields(keys[n..], values[n..], fmt)
  {
    if n > 0 {
      OptionalFieldsSplit(keys[1..], values[1..], n - 1, fmt);
      assert keys[1..][..n - 1] == keys[..n][1..];
      assert values[1..][..n - 1] == values[..n][1..];
      assert keys[1..][n - 1..] == keys[n..];
      assert values[1..][n - 1..] == values[n..];
    } else {
      assert keys[..0] == [] && keys[0..] == keys && values[0..] == values;
    }
  }

  /** A falsy value writes the same as a missing one. */
  lemma FalsyIsMissing(keys: seq<string>, values: seq<Value>, k: nat, fmt: FloatFormat)
    requires |keys| == |values| && k < |values| && !Truthy(values[k])
    ensures OptionalFields(keys, values[k := NoneV], fmt) == OptionalFields(keys, values, fmt)
  {
    OptionalFieldsSplit(keys, values, k, fmt);
    OptionalFieldsSplit(keys, values[k := NoneV], k, fmt);
    assert values[k := NoneV][..k] == values[..k];
    assert values[k := NoneV][k + 1..] == values[k + 1..];
    assert keys[k..][1..] == keys[k + 1..];
  }

  /** The position part every obstacle tag starts with. */
  function ObstaclePrefix(o: Obstacle, fmt: FloatFormat): string
  {
    o.name + Field("x", Str(o.x, fmt)) + Field("y", Str(o.y, fmt))
  }

  /** The tag string `add_obstacles` builds for one obstacle: the name and
      position, then the truthy optional attributes in the fixed key order. */
  function ObstacleTag(o: Obstacle, fmt: FloatFormat): (r: string)
    ensures |ObstaclePrefix(o, fmt)| <= |r| && r[..|ObstaclePrefix(o, fmt)|] == ObstaclePrefix(o, fmt)
    ensures r == ObstaclePrefix(o, fmt) <==> forall k :: 0 <= k < |OptionalKeys| ==> !Truthy(OptionalValues(o)[k])
  {
    var p := ObstaclePrefix(o, fmt);
    var r := p + OptionalFields(OptionalKeys, OptionalValues(o), fmt);
    OptionalFieldsEmpty(OptionalKeys, OptionalValues(o), fmt);
    assert r[..|p|] == p;
    r
  }

  /** `add_obstacles`: exactly one `obstacles` container appended to the
      root, with one child per obstacle, in order. */
  function AddObstacles(env: Environment, obstacles: seq<Obstacle>, fmt: FloatFormat): (r: Environment)
    ensures |r.extras| == |env.extras| + 1 && r.extras[..|env.extras|] == env.extras
    ensures var c := r.extras[|env.extras|];
            && c.tag == "obstacles"
            && |c.children| == |obstacles|
            && forall k :: 0 <= k < |obstacles| ==> c.children[k] == NewElement(ObstacleTag(obstacles[k], fmt))
    ensures r.lanes == env.lanes
  {
    var c := Element("obstacles", [], None, None,
                     seq(|obstacles|, k requires 0 <= k < |obstacles| => NewElement(ObstacleTag(obstacles[k], fmt))));
    env.(extras := env.extras + [c])
  }

  function LaneSegmentTag(s: Segment, fmt: FloatFormat): string
  {
    "laneSegment" + Field("x", Str(s.x, fmt)) + Field("y", Str(s.y, fmt)) + Field("width", Str(s.width, fmt))
  }

  /** `left_lanes != 0 and left_lanes is not None`. */
  predicate LaneCountSet(v: Value)
  {
    !EqualsZero(v) && v != NoneV
  }

  /** The `lane` element: markings exactly when requested, a lane count
      exactly when it is neither zero nor missing, and one segment child per
      segment in order. */
  function LaneElement(segments: seq<Segment>, markings: bool, leftLanes: Value, rightLanes: Value,
                       fmt: FloatFormat): (r: Element)
    ensures r.tag == "lane"
    ensures Lookup(r.attrib, "markings") == if markings then Some("true") else None
    ensures Lookup(r.attrib, "leftLanes") == if LaneCountSet(leftLanes) then Some(Str(leftLanes, fmt)) else None
    ensures Lookup(r.attrib, "rightLanes") == if LaneCountSet(rightLanes) then Some(Str(rightLanes, fmt)) else None
    ensures |r.children| == |segments|
    ensures forall k :: 0 <= k < |segments| ==> r.children[k] == NewElement(LaneSegmentTag(segments[k], fmt))
  {
    Element("lane", LaneAttributes(markings, leftLanes, rightLanes, fmt), None, None,
            seq(|segments|, k requires 0 <= k < |segments| => NewElement(LaneSegmentTag(segments[k], fmt))))
  }

  /** The attributes `add_lane` sets on a new lane, in the order it sets
      them. */
  function LaneAttributes(markings: bool, leftLanes: Value, rightLanes: Value, fmt: FloatFormat): (r: seq<(string, string)>)
    ensures Lookup(r, "markings") == if markings then Some("true") else None
    ensures Lookup(r, "leftLanes") == if LaneCountSet(leftLanes) then Some(Str(leftLanes, fmt)) else None
    ensures Lookup(r, "rightLanes") == if LaneCountSet(rightLanes) then Some(Str(rightLanes, fmt)) else None
  {
    var a1 := if markings then Update([], "markings", "true") else [];
    var a2 := if LaneCountSet(leftLanes) then Update(a1, "leftLanes", Str(leftLanes, fmt)) else a1;
    if LaneCountSet(rightLanes) then Update(a2, "rightLanes", Str(rightLanes, fmt)) else a2
  }

  /** For a numeric lane count, "set" is the same as "truthy". */
  lemma LaneCountSetIsTruthy(v: Value)
    requires IsNumber(v)
    ensures LaneCountSet(v) <==> Truthy(v)
  {
    TruthyNumbers(v);
  }

  /** `add_lane`: one more lane under `lanes`; nothing else changes. */
  function AddLane(env: Environment, segments: seq<Segment>, markings: bool, leftLanes: Value, rightLanes: Value,
                   fmt: FloatFormat): (r: Environment)
    ensures r.lanes.children == env.lanes.children + [LaneElement(segments, markings, leftLanes, rightLanes, fmt)]
    ensures r.(lanes := env.lanes) == env
  {
    env.(lanes := Append(env.lanes, LaneElement(segments, markings, leftLanes, rightLanes, fmt)))
  }

  /** The file-name and tree part of `save_xml`. */
  function Save(env: Environment, name: string): (r: SavedXml)
    ensures r.fileName == name + Suffix
    ensures EndsWith(r.fileName, Suffix)
    ensures r.tree == Indent(Root(env), 0)
  {
    EndsWithAppended(name, Suffix);
    SavedXml(name + Suffix, Indent(Root(env), 0))
  }
}

=== FILE: evolution.dfy ===
/** The generation driver's population bookkeeping (`genetic_algorithm`),
    with the start population (`_create_start_population`) and the newcomer
    (`_add_newcomer`). How two parents turn into two children (crossover, then
    mutation of each child) is a parameter here. */
module Evolution {
  import opened Base
  import opened Profiles
  import opened Geometry
  import opened Operators
  import opened Selection

  /** A fresh individual as the generator creates it: fitness 0. */
  function Fresh(points: seq<Point>, filesName: string): Individual
  {
    Individual(points, filesName, 0.0)
  }

  /** The roads among a run of synthesis attempts, in order. */
  function Successes(attempts: seq<Option<seq<Point>>>): (r: seq<seq<Point>>)
    ensures |r| <= |attempts|
  {
    if |attempts| == 0 then []
    else (if attempts[0].Some? then [attempts[0].value] else []) + Successes(attempts[1..])
  }

  /** The roads of two runs in a row are those of the first, then those of
      the second. */
  lemma {:induction false} SuccessesConcat(a: seq<Option<seq<Point>>>, b: seq<Option<seq<Point>>>)
    ensures Successes(a + b) == Successes(a) + Successes(b)
  {
    if |a| > 0 {
      assert (a + b)[1..] == a[1..] + b;
      SuccessesConcat(a[1..], b);
    } else {
      assert a + b == b;
    }
  }

  /** `_create_start_population`: keeps calling the synthesiser (attempt `k`
      returns `attempts[k]`) until POPULATION_SIZE roads exist, each becoming a
      fresh individual. The source loops for as long as that takes; here the
      attempts must contain enough roads. */
  method CreateStartPopulation(attempts: seq<Option<seq<Point>>>, filesName: string)
    returns (population: seq<Individual>)
    requires |Successes(attempts)| >= PopulationSize
    ensures |population| == PopulationSize
    ensures forall i :: 0 <= i < |population| ==> population[i] == Fresh(Successes(attempts)[i], filesName)
  {
    population := [];
    var k := 0;
    while |population| < PopulationSize
      invariant 0 <= k <= |attempts|
      invariant population == seq(|Successes(attempts[..k])|, i requires 0 <= i < |Successes(attempts[..k])| =>
                                    Fresh(Successes(attempts[..k])[i], filesName))
      invariant |population| <= PopulationSize
      invariant Successes(attempts[..k]) <= Successes(attempts)
      invariant |population| < PopulationSize ==> k < |attempts|
      decreases |attempts| - k
    {
      SuccessesConcat(attempts[..k], [attempts[k]]);
      SuccessesConcat(attempts[..k + 1], attempts[k + 1..]);
      assert attempts[..k + 1] == attempts[..k] + [attempts[k]];
      assert attempts == attempts[..k + 1] + attempts[k + 1..];
      if attempts[k].Some? {
        population := population + [Fresh(attempts[k].value, filesName)];
      }
      k := k + 1;
      if k == |attempts| {
        assert attempts[..k] == attempts;
      }
    }
  }

  /** `_add_newcomer`: retries the synthesiser until it returns a road and
      wraps the first one as a fresh individual. The source loops for as long
      as that takes; here the attempts must contain a road. */
  function Newcomer(attempts: seq<Option<seq<Point>>>, filesName: string): (r: Individual)
    requires exists k :: 0 <= k < |attempts| && attempts[k].Some?
    ensures r.fitness == 0.0 && r.fileName == filesName
    ensures exists k :: 0 <= k < |attempts| && attempts[k] == Some(r.controlPoints)
                        && forall j :: 0 <= j < k ==> attempts[j].None?
  {
    if attempts[0].Some? then Fresh(attempts[0].value, filesName)
    else
      var k :| 0 <= k < |attempts| && attempts[k].Some?;
      assert attempts[1..][k - 1].Some?;
      var r := Newcomer(attempts[1..], filesName);
      var j :| 0 <= j < |attempts[1..]| && attempts[1..][j] == Some(r.controlPoints)
               && forall i :: 0 <= i < j ==> attempts[1..][i].None?;
      assert attempts[j + 1] == Some(r.controlPoints);
      assert forall i :: 0 <= i < j + 1 ==> attempts[i].None? by {
        forall i | 0 <= i < j + 1 ensures attempts[i].None? {
          if i > 0 { assert attempts[1..][i - 1] == attempts[i]; }
        }
      }
      r
  }

  /** How one iteration of the fill loop turns the two selected parents into
      the two children it appends (crossover, then mutation of each child).
      Iteration `k` uses `breed(k, ...)`. */
  type Breed = (nat, Individual, Individual) -> (Individual, Individual)

  /** The pair appended by iteration `k` of the fill loop (at positions
      `start + 2k` and `start + 2k + 1`) was bred from two different members
      of the population as it stood then. */
  ghost predicate BredFrom(population: seq<Individual>, start: nat, breed: Breed, k: nat)
    requires start + 2 * k + 2 <= |population|
  {
    var n := start + 2 * k;
    exists i, j :: 0 <= i < n && 0 <= j < n && i != j
                   && (population[n], population[n + 1]) == breed(k, population[i], population[j])
  }

  /** Appending to the population does not change how earlier pairs were
      bred. */
  lemma BredFromExtended(current: seq<Individual>, grown: seq<Individual>, start: nat, breed: Breed, m: nat)
    requires start + 2 * m + 2 <= |current| <= |grown|
    requires grown[..|current|] == current
    requires BredFrom(current, start, breed, m)
    ensures BredFrom(grown, start, breed, m)
  {
    var n := start + 2 * m;
    var a, b :| 0 <= a < n && 0 <= b < n && a != b
                && (current[n], current[n + 1]) == breed(m, current[a], current[b]);
    assert grown[a] == current[a] && grown[b] == current[b];
    assert grown[n] == current[n] && grown[n + 1] == current[n + 1];
  }

  /** The fill loop of `genetic_algorithm`: while the population is smaller
      than POPULATION_SIZE, sample two different members and append the two
      children bred from them. */
  method Fill(population: seq<Individual>, breed: Breed) returns (filled: seq<Individual>)
    requires |population| >= 2
    ensures |population| <= |filled|
    ensures filled[..|population|] == population
    ensures |filled| >= PopulationSize
    ensures (|filled| - |population|) % 2 == 0
    ensures |population| < PopulationSize ==> |filled| <= PopulationSize + 1
    ensures |population| >= PopulationSize ==> filled == population
    ensures forall k :: 0 <= k < (|filled| - |population|) / 2 ==> BredFrom(filled, |population|, breed, k)
  {
    var start := |population|;
    var current := population;
    var k := 0;
    while |current| < PopulationSize
      invariant |current| == start + 2 * k
      invariant current[..start] == population
      invariant start < PopulationSize || k == 0
      invariant start < PopulationSize ==> |current| <= PopulationSize + 1
      invariant forall m :: 0 <= m < k ==> BredFrom(current, start, breed, m)
    {
      var i, j :| 0 <= i < |current| && 0 <= j < |current| && i != j;
      var children := breed(k, current[i], current[j]);
      var grown := current + [children.0, children.1];
      assert grown[..|current|] == current;
      assert BredFrom(grown, start, breed, k) by {
        assert grown[i] == current[i] && grown[j] == current[j];
        assert (grown[|current|], grown[|current| + 1]) == breed(k, grown[i], grown[j]);
      }
      forall m | 0 <= m < k ensures BredFrom(grown, start, breed, m) {
        BredFromExtended(current, grown, start, breed, m);
      }
      current := grown;
      k := k + 1;
    }
    filled := current;
  }

  /** One generation of `genetic_algorithm`, as far as the population's size
      and make-up go: an empty population is first seeded with
      POPULATION_SIZE roads; the fill loop (`Fill`) brings it to at least
      POPULATION_SIZE; the full population (`filled`, which the source exports
      and plots) is then cut down to its NUMBER_ELITES lowest-fitness members
      and one newcomer is appended. `sample` fails on fewer than two members,
      so a population of one is excluded. */
  method GeneticAlgorithm(population: seq<Individual>, seeds: seq<Option<seq<Point>>>,
                          newcomerAttempts: seq<Option<seq<Point>>>, filesName: string, breed: Breed)
    returns (filled: seq<Individual>, next: seq<Individual>)
    requires |population| != 1
    requires |population| == 0 ==> |Successes(seeds)| >= PopulationSize
    requires exists k :: 0 <= k < |newcomerAttempts| && newcomerAttempts[k].Some?
    ensures |population| <= |filled|
    ensures |population| > 0 ==> filled[..|population|] == population
    ensures |population| == 0 ==> |filled| == PopulationSize
    ensures |population| == 0 ==> forall i :: 0 <= i < |filled| ==> filled[i] == Fresh(Successes(seeds)[i], filesName)
    ensures |filled| >= PopulationSize
    ensures |population| < PopulationSize ==> |filled| <= PopulationSize + 1
    ensures |population| >= PopulationSize ==> filled == population
    ensures next == ChooseElite(filled) + [Newcomer(newcomerAttempts, filesName)]
    ensures |next| == NumberElites + 1
  {
    var current := population;
    if |current| == 0 {
      current := CreateStartPopulation(seeds, filesName);
    }
    filled := Fill(current, breed);
    next := ChooseElite(filled) + [Newcomer(newcomerAttempts, filesName)];
  }
}

=== FILE: geometry.dfy ===
/** Road geometry: integer control points, the turn angle between two
    segments, the width-line resize factor, and the spline and intersection
    routines the generator consults but which are not part of this model. */
module Geometry {

  /** A control point on the integer grid. */
  datatype Point = Point(x: int, y: int)

  /** One sample of the evaluated spline (floating-point coordinates). */
  type Sample = (real, real)

  /** A straight segment between two samples (a two-point `LineString`). */
  datatype Line = Line(start: Sample, end: Sample)

  /** `degrees(atan2(dy, dx))` for integer arguments: a direction in degrees in
      the interval (-180, 180]. Only this range is modelled. */
  type Atan2Degrees = f: (int, int) -> real | forall dy, dx :: -180.0 < f(dy, dx) <= 180.0
    witness (dy: int, dx: int) => 0.0

  /** `get_angle(a, b, c)`: the turn at `b` from the direction `b -> a` to the
      direction `b -> c`, brought into [0, 360) by adding 360 to a negative
      difference. */
  function GetAngle(atan2: Atan2Degrees, a: Point, b: Point, c: Point): (deg: real)
    ensures 0.0 <= deg < 360.0
    ensures var raw := atan2(c.y - b.y, c.x - b.x) - atan2(a.y - b.y, a.x - b.x);
            deg == raw || deg == raw + 360.0
  {
    var ang := atan2(c.y - b.y, c.x - b.x) - atan2(a.y - b.y, a.x - b.x);
    if ang < 0.0 then ang + 360.0 else ang
  }

  /** `_get_resize_factor`: the factor that scales a line of the given length
      to the street width; a zero-length line gets factor 0 instead of a
      division by zero. */
  function ResizeFactor(widthOfStreet: int, length: real): (f: real)
    ensures length == 0.0 ==> f == 0.0
    ensures length != 0.0 ==> f * length == widthOfStreet as real
    ensures widthOfStreet >= 0 && length >= 0.0 ==> f >= 0.0
  {
    if length == 0.0 then 0.0 else widthOfStreet as real / length
  }

  /** The spline evaluation, width-line construction and intersection checks
      the generator calls. They are floating-point or not part of this model,
      so they are uninterpreted: any functions of these signatures.
      - `bspline(degree, points, samples)`: `_bspline`
      - `widthLines(width, spline)`: `_get_width_lines`
      - `pointsToLines(spline)`: `convert_points_to_lines`
      - the remaining fields: the checks of `utils/validity_checks`. */
  datatype Geometry = Geometry(
    bspline: (int, seq<Point>, nat) -> seq<Sample>,
    widthLines: (int, seq<Sample>) -> seq<Line>,
    pointsToLines: seq<Sample> -> seq<Line>,
    intersectionCheckLast: (seq<Point>, Point) -> bool,
    splineIntersectionCheck: seq<Sample> -> bool,
    intersectionCheckWidth: (seq<Line>, seq<Line>) -> bool,
    intersectionCheckAllNp: seq<Sample> -> bool,
    intersectionCheckAll: seq<Point> -> bool)
}

=== FILE: operators.dfy ===
/** The genetic operators over road individuals: mutation (`_mutation`),
    single-point recombination (`_recombination`) and the crossover that
    searches for a valid recombination (`_crossover`). */
module Operators {
  import opened Base
  import opened Profiles
  import opened Geometry
  import opened Candidates

  /** One road of the population: its control points, the prefix of its
      scenario file names, and its fitness. */
  datatype Individual = Individual(controlPoints: seq<Point>, fileName: string, fitness: real)

  /** `random() <= 0.25`: the chance with which a point is mutated and a cut
      position is tried. */
  const Probability := 0.25

  /** The checks a mutated road must pass; the spline is sampled at 60 points. */
  predicate MutationInvalid(cfg: Config, geo: Geometry, points: seq<Point>)
  {
    var spline := geo.bspline(cfg.splineDegree, points, 60);
    || geo.intersectionCheckAllNp(spline)
    || geo.intersectionCheckWidth(geo.widthLines(cfg.widthOfStreet, spline), geo.pointsToLines(spline))
  }

  /** `p` is the point the candidate search with the draws `d` proposes for
      index `i`, against the two points before it. */
  ghost predicate Proposes(cfg: Config, atan2: Atan2Degrees, points: seq<Point>, i: nat, d: nat -> Offset, p: Point)
  {
    2 <= i < |points| && Proposal(cfg, atan2, points[i - 2], points[i - 1], d, p)
  }

  /** Retry `d` for index `i` fails: the point its candidate search
      proposes, written into the list, breaks one of the mutation checks. */
  ghost predicate RetryFails(cfg: Config, geo: Geometry, atan2: Atan2Degrees, points: seq<Point>, i: nat,
                             d: nat -> Offset)
  {
    && 2 <= i < |points|
    && forall p :: Proposes(cfg, atan2, points, i, d, p) ==> MutationInvalid(cfg, geo, points[i := p])
  }

  /** `mutated` is what retry `j` (of the at most MAX_TRIES/10) writes: its
      proposal replaces the point at index `i`, the road passes the mutation
      checks, and every earlier retry failed. */
  ghost predicate WrittenBy(cfg: Config, geo: Geometry, atan2: Atan2Degrees, points: seq<Point>, i: nat,
                            draw: nat -> nat -> Offset, j: nat, mutated: seq<Point>)
  {
    && 2 <= i < |points| == |mutated|
    && j * 10 < MaxTries
    && mutated == points[i := mutated[i]]
    && Proposes(cfg, atan2, points, i, draw(j), mutated[i])
    && !MutationInvalid(cfg, geo, mutated)
    && forall u: nat :: u < j ==> RetryFails(cfg, geo, atan2, points, i, draw(u))
  }

  /** The outcome of the retry loop for index `i`: the point of the first
      retry that keeps the road valid, or the list as it was when every one of
      the MAX_TRIES/10 retries fails. */
  ghost predicate RetriedAt(cfg: Config, geo: Geometry, atan2: Atan2Degrees, points: seq<Point>, i: nat,
                            draw: nat -> nat -> Offset, mutated: seq<Point>)
  {
    || (exists j: nat :: WrittenBy(cfg, geo, atan2, points, i, draw, j, mutated))
    || (mutated == points && forall u: nat :: u * 10 < MaxTries ==> RetryFails(cfg, geo, atan2, points, i, draw(u)))
  }

  /** Position `k` of `mutated`: with its coin above 0.25 the original point
      stays; otherwise it is the outcome of the retry loop (with the draws
      `draw(k)`) on the list as it stood then, final points before `k` and
      original points from `k` on. Only the prefix `mutated[..k + 1]` is
      consulted. */
  ghost predicate ValidChange(cfg: Config, geo: Geometry, atan2: Atan2Degrees, coin: nat -> real,
                              draw: nat -> nat -> nat -> Offset, mutated: seq<Point>, original: seq<Point>, k: nat)
    requires 2 <= k < |mutated| == |original|
  {
    var before := mutated[..k] + original[k..];
    var after := mutated[..k + 1] + original[k + 1..];
    && (coin(k) > Probability ==> mutated[k] == original[k])
    && (coin(k) <= Probability ==> RetriedAt(cfg, geo, atan2, before, k, draw(k), after))
  }

  /** How `mutated` relates to `original`: same length and file name, fitness
      reset to 0, the two seed positions untouched, and every other point
      kept or rewritten as its coin and retries decide. */
  ghost predicate MutationOf(cfg: Config, geo: Geometry, atan2: Atan2Degrees,
                             original: Individual, coin: nat -> real, draw: nat -> nat -> nat -> Offset,
                             mutated: Individual)
  {
    var p := original.controlPoints;
    var q := mutated.controlPoints;
    && |q| == |p|
    && mutated.fileName == original.fileName
    && mutated.fitness == 0.0
    && (forall i :: 0 <= i < |p| && i < 2 ==> q[i] == p[i])
    && (forall i :: 2 <= i < |p| ==> ValidChange(cfg, geo, atan2, coin, draw, q, p, i))
  }

  /** One position of `_mutation` whose coin came up: up to MAX_TRIES/10
      candidates for index `i` (retry `j` uses the draws `draw(j)`); the first
      that keeps the road valid is written into the list. */
  method MutatePoint(cfg: Config, geo: Geometry, atan2: Atan2Degrees, points: seq<Point>, i: nat,
                     draw: nat -> nat -> Offset)
    returns (r: Outcome<seq<Point>>)
    requires 2 <= i < |points|
    requires forall j, t :: InSquare(draw(j)(t), cfg.maxSegmentLength)
    ensures r.Ok? ==> |r.value| == |points| && r.value == points[i := r.value[i]]
    ensures r.Ok? && r.value[i] != points[i] ==>
              && Acceptable(cfg, atan2, points[i - 2], points[i - 1], r.value[i])
              && !MutationInvalid(cfg, geo, r.value)
    ensures r.Ok? ==> RetriedAt(cfg, geo, atan2, points, i, draw, r.value)
    ensures r.NoCandidate? ==> exists j: nat, a: Point, b: Point :: Exhausted(cfg, atan2, a, b, draw(j))
  {
    var current := points;
    var valid := false;
    var tries: nat := 0;
    ghost var chosen: nat := 0;
    while !valid && tries * 10 < MaxTries
      invariant |current| == |points| && current == points[i := current[i]]
      invariant !valid ==> current == points && forall u: nat :: u < tries ==> RetryFails(cfg, geo, atan2, points, i, draw(u))
      invariant valid ==> WrittenBy(cfg, geo, atan2, points, i, draw, chosen, current)
      decreases (if valid then 0 else 1), MaxTries - tries * 10
    {
      var candidate := GenerateRandomPoint(cfg, atan2, current[i - 1], current[i - 2], draw(tries));
      if candidate.None? {
        return NoCandidate;
      }
      assert Proposes(cfg, atan2, points, i, draw(tries), candidate.value);
      var attempt := points[i := candidate.value];
      if !MutationInvalid(cfg, geo, attempt) {
        valid := true;
        current := attempt;
        chosen := tries;
      } else {
        forall p | Proposes(cfg, atan2, points, i, draw(tries), p)
          ensures MutationInvalid(cfg, geo, points[i := p])
        {
          ProposalUnique(cfg, atan2, points[i - 2], points[i - 1], draw(tries), candidate.value, p);
        }
      }
      tries := tries + 1;
    }
    if valid {
      assert WrittenBy(cfg, geo, atan2, points, i, draw, chosen, current);
      assert current[i] != points[i] ==> Acceptable(cfg, atan2, points[i - 2], points[i - 1], current[i]);
    }
    return Ok(current);
  }

  /** `_mutation`: every point from index 2 on is, when its coin `coin(i)`
      is at most 0.25, offered fresh candidates (`MutatePoint`, with the draws
      `draw(i)`). Fitness is reset to 0. */
  method Mutation(cfg: Config, geo: Geometry, atan2: Atan2Degrees, individual: Individual,
                  coin: nat -> real, draw: nat -> nat -> nat -> Offset)
    returns (r: Outcome<Individual>)
    requires forall i, j, t :: InSquare(draw(i)(j)(t), cfg.maxSegmentLength)
    ensures r.Ok? ==> MutationOf(cfg, geo, atan2, individual, coin, draw, r.value)
    ensures r.NoCandidate? ==> exists i: nat, j: nat, a: Point, b: Point :: Exhausted(cfg, atan2, a, b, draw(i)(j))
  {
    var original := individual.controlPoints;
    var points := original;
    var i := 2;
    while i < |points|
      invariant MutatedBefore(cfg, geo, atan2, coin, draw, points, original, i)
    {
      if coin(i) <= Probability {
        var step := MutatePoint(cfg, geo, atan2, points, i, draw(i));
        if step.NoCandidate? {
          return NoCandidate;
        }
        MutatedStep(cfg, geo, atan2, coin, draw, points, step.value, original, i);
        points := step.value;
      } else {
        KeptStep(cfg, geo, atan2, coin, draw, points, original, i);
      }
      i := i + 1;
    }
    return Ok(individual.(controlPoints := points, fitness := 0.0));
  }

  /** The loop state of `_mutation` before index `i`: the seed positions are
      untouched, the points from `i` on are still the original ones, and each
      position in between was kept or rewritten as its coin and retries
      decide. */
  ghost predicate MutatedBefore(cfg: Config, geo: Geometry, atan2: Atan2Degrees, coin: nat -> real,
                                draw: nat -> nat -> nat -> Offset, points: seq<Point>, original: seq<Point>, i: nat)
  {
    && |points| == |original|
    && 2 <= i
    && (forall k :: 0 <= k < |points| && k < 2 ==> points[k] == original[k])
    && (i <= |points| ==> points == points[..i] + original[i..])
    && (forall k :: 2 <= k < i && k < |points| ==> ValidChange(cfg, geo, atan2, coin, draw, points, original, k))
  }

  /** A position whose coin came up, rewritten by the retry loop, extends the
      loop state by one. */
  lemma MutatedStep(cfg: Config, geo: Geometry, atan2: Atan2Degrees, coin: nat -> real,
                    draw: nat -> nat -> nat -> Offset, points: seq<Point>, next: seq<Point>,
                    original: seq<Point>, i: nat)
    requires MutatedBefore(cfg, geo, atan2, coin, draw, points, original, i) && i < |points|
    requires coin(i) <= Probability && |next| == |points| && next == points[i := next[i]]
    ensures RetriedAt(cfg, geo, atan2, points, i, draw(i), next)
            ==> MutatedBefore(cfg, geo, atan2, coin, draw, next, original, i + 1)
  {
    if RetriedAt(cfg, geo, atan2, points, i, draw(i), next) {
      KeepsEarlierChanges(cfg, geo, atan2, coin, draw, points, next, original, i);
      assert next[..i] + original[i..] == points;
      assert next[..i + 1] + original[i + 1..] == next;
      assert ValidChange(cfg, geo, atan2, coin, draw, next, original, i);
    }
  }

  /** A position whose coin did not come up stays, extending the loop state
      by one. */
  lemma KeptStep(cfg: Config, geo: Geometry, atan2: Atan2Degrees, coin: nat -> real,
                 draw: nat -> nat -> nat -> Offset, points: seq<Point>, original: seq<Point>, i: nat)
    requires MutatedBefore(cfg, geo, atan2, coin, draw, points, original, i) && i < |points|
    requires coin(i) > Probability
    ensures MutatedBefore(cfg, geo, atan2, coin, draw, points, original, i + 1)
  {
    assert points[..i + 1] + original[i + 1..] == points;
  }

  /** Rewriting position `i` leaves the record of every earlier position as it
      was, since each consults only the prefix up to itself. */
  lemma KeepsEarlierChanges(cfg: Config, geo: Geometry, atan2: Atan2Degrees, coin: nat -> real,
                            draw: nat -> nat -> nat -> Offset, points: seq<Point>, next: seq<Point>,
                            original: seq<Point>, i: nat)
    requires |points| == |next| == |original| && i < |points| && next == points[i := next[i]]
    ensures (forall k :: 2 <= k < i ==> ValidChange(cfg, geo, atan2, coin, draw, points, original, k))
            ==> forall k :: 2 <= k < i ==> ValidChange(cfg, geo, atan2, coin, draw, next, original, k)
  {
    forall k | 2 <= k < i && ValidChange(cfg, geo, atan2, coin, draw, points, original, k)
      ensures ValidChange(cfg, geo, atan2, coin, draw, next, original, k)
    {
      assert next[..k] == points[..k];
      assert next[..k + 1] == points[..k + 1];
    }
  }

  /** With no coin coming up, mutation changes nothing but the fitness. */
  lemma NoCoinNoChange(cfg: Config, geo: Geometry, atan2: Atan2Degrees, original: Individual,
                       coin: nat -> real, draw: nat -> nat -> nat -> Offset, mutated: Individual)
    requires MutationOf(cfg, geo, atan2, original, coin, draw, mutated)
    requires forall i :: 2 <= i < |original.controlPoints| ==> coin(i) > Probability
    ensures mutated == original.(fitness := 0.0)
  {
    var p := original.controlPoints;
    var q := mutated.controlPoints;
    forall i | 0 <= i < |p|
      ensures q[i] == p[i]
    {
      if i >= 2 {
        assert ValidChange(cfg, geo, atan2, coin, draw, q, p, i);
      }
    }
    assert q == p;
  }

  /** `_recombination`: the first child copies the first parent's points up to
      and including the cut, then the second parent's points after it; the
      second child is the mirror image. Every other field comes from the
      parent whose prefix the child carries. Built position by position, as the
      source's three copy loops do. */
  function Recombination(p1: Individual, p2: Individual, cut: nat): (children: (Individual, Individual))
    requires cut < |p1.controlPoints| && cut < |p2.controlPoints|
    ensures children.0.controlPoints == p1.controlPoints[..cut + 1] + p2.controlPoints[cut + 1..]
    ensures children.1.controlPoints == p2.controlPoints[..cut + 1] + p1.controlPoints[cut + 1..]
    ensures |children.0.controlPoints| == |p2.controlPoints|
    ensures |children.1.controlPoints| == |p1.controlPoints|
    ensures children.0.(controlPoints := p1.controlPoints) == p1
    ensures children.1.(controlPoints := p2.controlPoints) == p2
  {
    var a := p1.controlPoints;
    var b := p2.controlPoints;
    var c1 := seq(|b|, k requires 0 <= k < |b| => if k <= cut then a[k] else b[k]);
    var c2 := seq(|a|, k requires 0 <= k < |a| => if k <= cut then b[k] else a[k]);
    assert c1 == a[..cut + 1] + b[cut + 1..];
    assert c2 == b[..cut + 1] + a[cut + 1..];
    (p1.(controlPoints := c1), p2.(controlPoints := c2))
  }

  /** Recombining the two children at the same cut gives back the parents. */
  lemma RecombinationInvolution(p1: Individual, p2: Individual, cut: nat)
    requires cut < |p1.controlPoints| && cut < |p2.controlPoints|
    ensures var (c1, c2) := Recombination(p1, p2, cut);
            Recombination(c1, c2, cut) == (p1, p2)
  {
    var (c1, c2) := Recombination(p1, p2, cut);
    var (d1, d2) := Recombination(c1, c2, cut);
    assert d1.controlPoints == p1.controlPoints;
    assert d2.controlPoints == p2.controlPoints;
  }

  /** The shorter parent's length: cuts are tried below it. */
  function Smaller(p1: Individual, p2: Individual): nat
  {
    if |p1.controlPoints| <= |p2.controlPoints| then |p1.controlPoints| else |p2.controlPoints|
  }

  /** The four checks both children of a recombination must pass; the splines
      use the default of 75 samples. */
  predicate ChildrenValid(cfg: Config, geo: Geometry, children: (Individual, Individual))
  {
    var s1 := geo.bspline(cfg.splineDegree, children.0.controlPoints, 75);
    var s2 := geo.bspline(cfg.splineDegree, children.1.controlPoints, 75);
    !(|| geo.intersectionCheckAll(children.0.controlPoints)
      || geo.intersectionCheckAll(children.1.controlPoints)
      || geo.intersectionCheckWidth(geo.widthLines(cfg.widthOfStreet, s1), geo.pointsToLines(s1))
      || geo.intersectionCheckWidth(geo.widthLines(cfg.widthOfStreet, s2), geo.pointsToLines(s2)))
  }

  /** Cut `cut` is tried (its coin is at most 0.25) and recombining there gives
      two valid children. */
  predicate Fires(cfg: Config, geo: Geometry, p1: Individual, p2: Individual, coins: nat -> real, cut: nat)
  {
    && cut < Smaller(p1, p2)
    && coins(cut) <= Probability
    && ChildrenValid(cfg, geo, Recombination(p1, p2, cut))
  }

  /** `cut` is the first firing cut at or after `from`. */
  predicate FirstFiring(cfg: Config, geo: Geometry, p1: Individual, p2: Individual, coins: nat -> real,
                        from: nat, cut: nat)
  {
    && from <= cut
    && Fires(cfg, geo, p1, p2, coins, cut)
    && forall u :: from <= u < cut ==> !Fires(cfg, geo, p1, p2, coins, u)
  }

  /** A firing cut at or after `from` implies a first one. */
  lemma {:induction false} FirstFiringExists(cfg: Config, geo: Geometry, p1: Individual, p2: Individual,
                                             coins: nat -> real, from: nat, cut: nat)
    requires from <= cut && Fires(cfg, geo, p1, p2, coins, cut)
    ensures exists c :: FirstFiring(cfg, geo, p1, p2, coins, from, c)
    decreases cut - from
  {
    if !Fires(cfg, geo, p1, p2, coins, from) {
      FirstFiringExists(cfg, geo, p1, p2, coins, from + 1, cut);
      var c :| FirstFiring(cfg, geo, p1, p2, coins, from + 1, c);
      assert FirstFiring(cfg, geo, p1, p2, coins, from, c);
    } else {
      assert FirstFiring(cfg, geo, p1, p2, coins, from, from);
    }
  }

  /** The outcome of one pass of the inner loop of `_crossover`. */
  datatype Sweep = Found(at: nat, children: (Individual, Individual)) | Swept(cut: nat)

  /** The inner loop of `_crossover`: tries the cuts from `cut` up to the
      shorter parent's length, in order, and stops at the first that fires;
      otherwise reports where the cut counter ended. */
  function InnerSweep(cfg: Config, geo: Geometry, p1: Individual, p2: Individual, coins: nat -> real, cut: nat)
    : (r: Sweep)
    decreases Smaller(p1, p2) - cut
    ensures r.Swept? <==> forall u :: cut <= u ==> !Fires(cfg, geo, p1, p2, coins, u)
    ensures r.Swept? ==> r.cut == if cut < Smaller(p1, p2) then Smaller(p1, p2) else cut
    ensures r.Found? ==> FirstFiring(cfg, geo, p1, p2, coins, cut, r.at)
                         && r.children == Recombination(p1, p2, r.at)
  {
    if cut >= Smaller(p1, p2) then Swept(cut)
    else if coins(cut) <= Probability && ChildrenValid(cfg, geo, Recombination(p1, p2, cut)) then
      assert Fires(cfg, geo, p1, p2, coins, cut);
      Found(cut, Recombination(p1, p2, cut))
    else
      assert !Fires(cfg, geo, p1, p2, coins, cut);
      var r := InnerSweep(cfg, geo, p1, p2, coins, cut + 1);
      r
  }

  /** The outer loop of `_crossover`, from outer try `tries` with the inner cut
      counter at `cut`. The inner counter is never reset, so after the first
      pass it stays at the shorter length and later tries test nothing. Outer
      try `t` draws its coins from `coin(t)`. */
  function CrossoverLoop(cfg: Config, geo: Geometry, p1: Individual, p2: Individual,
                         coin: nat -> nat -> real, tries: nat, cut: nat)
    : (r: (Individual, Individual))
    ensures r == (p1, p2) || ChildrenValid(cfg, geo, r)
    decreases MaxTries - tries * 5
  {
    if tries * 5 >= MaxTries then (p1, p2)
    else
      match InnerSweep(cfg, geo, p1, p2, coin(tries), cut)
      case Found(_, children) => children
      case Swept(end) => CrossoverLoop(cfg, geo, p1, p2, coin, tries + 1, end)
  }

  /** Once the cut counter has reached the shorter length, the remaining outer
      tries give back the parents. */
  lemma {:induction false} LaterTriesReturnParents(cfg: Config, geo: Geometry, p1: Individual, p2: Individual,
                                                   coin: nat -> nat -> real, tries: nat, cut: nat)
    requires cut >= Smaller(p1, p2)
    ensures CrossoverLoop(cfg, geo, p1, p2, coin, tries, cut) == (p1, p2)
    decreases MaxTries - tries * 5
  {
    if tries * 5 < MaxTries {
      LaterTriesReturnParents(cfg, geo, p1, p2, coin, tries + 1, cut);
    }
  }

  /** `_crossover`: the cuts 1, 2, ... below the shorter parent's length are
      tried in order with the coins of the first outer try; the first cut whose
      coin is at most 0.25 and whose children pass all four checks gives the
      result. If there is none, the parents come back unchanged. */
  function Crossover(cfg: Config, geo: Geometry, p1: Individual, p2: Individual, coin: nat -> nat -> real)
    : (r: (Individual, Individual))
    ensures (forall u :: 1 <= u ==> !Fires(cfg, geo, p1, p2, coin(0), u)) ==> r == (p1, p2)
    ensures forall c :: FirstFiring(cfg, geo, p1, p2, coin(0), 1, c) ==> r == Recombination(p1, p2, c)
    ensures r == (p1, p2) || ChildrenValid(cfg, geo, r)
  {
    var r := CrossoverLoop(cfg, geo, p1, p2, coin, 0, 1);
    match InnerSweep(cfg, geo, p1, p2, coin(0), 1)
    case Found(_, children) =>
      assert r == children;
      r
    case Swept(end) =>
      LaterTriesReturnParents(cfg, geo, p1, p2, coin, 1, end);
      r
  }

  /** The 100 outer retries of `_crossover` add nothing: the result depends
      only on the coins of the first try. */
  lemma CrossoverOnlyFirstTryCounts(cfg: Config, geo: Geometry, p1: Individual, p2: Individual,
                                    coinA: nat -> nat -> real, coinB: nat -> nat -> real)
    requires coinA(0) == coinB(0)
    ensures Crossover(cfg, geo, p1, p2, coinA) == Crossover(cfg, geo, p1, p2, coinB)
  {
    var coins := coinA(0);
    if c :| 1 <= c && Fires(cfg, geo, p1, p2, coins, c) {
      FirstFiringExists(cfg, geo, p1, p2, coins, 1, c);
      var f :| FirstFiring(cfg, geo, p1, p2, coins, 1, f);
      assert FirstFiring(cfg, geo, p1, p2, coinB(0), 1, f);
    }
  }
}

=== FILE: profiles.dfy ===
/** The road generator's tunable parameters and the difficulty profiles that
    `set_difficulty` switches between. */
module Profiles {
  import opened Text

  /** The six parameters a difficulty profile sets. */
  datatype Config = Config(
    splineDegree: int,
    minSegmentLength: int,
    maxSegmentLength: int,
    widthOfStreet: int,
    minNodes: int,
    maxNodes: int)

  /** Parameters no setter changes. */
  const MaxTries := 500
  const PopulationSize := 8
  const NumberElites := 4

  /** The values the constructor assigns before applying a difficulty. */
  const Defaults := Config(5, 28, 45, 4, 8, 12)

  const Easy := Config(7, 30, 50, 4, 8, 12)
  const Medium := Config(6, 25, 45, 4, 12, 16)
  const Hard := Config(2, 20, 40, 5, 14, 22)

  /** The names `set_difficulty` recognises, after upper-casing. */
  predicate IsProfileName(upper: string)
  {
    upper == "EASY" || upper == "MEDIUM" || upper == "HARD"
  }

  /** Parameters under which the generator can run: positive segment bounds in
      the right order, a positive corridor width and node bounds that leave room
      for the two seed points. */
  predicate ValidConfig(c: Config)
  {
    && 1 <= c.splineDegree
    && 0 < c.minSegmentLength <= c.maxSegmentLength
    && 0 < c.widthOfStreet
    && 2 <= c.minNodes <= c.maxNodes
  }

  /** `set_difficulty`: the name is upper-cased; EASY, MEDIUM and HARD select
      their fixed profile, and any other name keeps the current parameters
      (the source only prints a warning). */
  function SetDifficulty(c: Config, difficulty: string): (r: Config)
    ensures ToUpper(difficulty) == "EASY" ==> r == Easy
    ensures ToUpper(difficulty) == "MEDIUM" ==> r == Medium
    ensures ToUpper(difficulty) == "HARD" ==> r == Hard
    ensures !IsProfileName(ToUpper(difficulty)) ==> r == c
    ensures ValidConfig(c) ==> ValidConfig(r)
  {
    var name := ToUpper(difficulty);
    if name == "EASY" then Easy
    else if name == "MEDIUM" then Medium
    else if name == "HARD" then Hard
    else c
  }

  /** The constructor: defaults first, then the requested difficulty. */
  function NewConfig(difficulty: string): (r: Config)
    ensures ValidConfig(r)
    ensures IsProfileName(ToUpper(difficulty)) || r == Defaults
  {
    SetDifficulty(Defaults, difficulty)
  }

  /** The constructor called without an argument: the difficulty defaults to
      "Easy", which selects the EASY profile. */
  function NewDefaultConfig(): (r: Config)
    ensures r == Easy && ValidConfig(r)
  {
    UpperOf("Easy", "EASY");
    NewConfig("Easy")
  }

  /** Selecting the same difficulty twice is the same as selecting it once. */
  lemma SetDifficultyIdempotent(c: Config, difficulty: string)
    ensures SetDifficulty(SetDifficulty(c, difficulty), difficulty) == SetDifficulty(c, difficulty)
  {
  }

  /** The name is case-insensitive: a name and its upper-cased form select the
      same parameters. */
  lemma SetDifficultyCaseInsensitive(c: Config, difficulty: string)
    ensures SetDifficulty(c, difficulty) == SetDifficulty(c, ToUpper(difficulty))
  {
    ToUpperIdempotent(difficulty);
  }

  /** An unknown name in the constructor keeps the constructor's own defaults,
      which differ from the EASY profile. */
  lemma UnknownNameKeepsDefaults()
    ensures NewConfig("default") == Defaults
    ensures Defaults != Easy
  {
    assert ToUpper("default") == "DEFAULT";
  }

  /** The names are matched after upper-casing. */
  lemma MixedCaseNames()
    ensures NewConfig("easy") == Easy
    ensures NewConfig("Medium") == Medium
    ensures NewConfig("hArD") == Hard
  {
    UpperOf("easy", "EASY");
    UpperOf("Medium", "MEDIUM");
    UpperOf("hArD", "HARD");
  }

  /** `u` is `s` upper-cased when it agrees with it character by character. */
  lemma UpperOf(s: string, u: string)
    requires |s| == |u| && forall i :: 0 <= i < |s| ==> UpperChar(s[i]) == u[i]
    ensures ToUpper(s) == u
  {
  }
}

=== FILE: selection.dfy ===
/** Elite selection (`_choose_elite`): a stable ascending sort by fitness,
    then the first NUMBER_ELITES individuals. */
module Selection {
  import opened Profiles
  import opened Operators

  /** Ordered by non-decreasing fitness. */
  predicate SortedByFitness(s: seq<Individual>)
  {
    forall i, j :: 0 <= i < j < |s| ==> s[i].fitness <= s[j].fitness
  }

  /** The individuals of fitness `v`, in their order in `s`. */
  function WithFitness(s: seq<Individual>, v: real): (r: seq<Individual>)
    ensures |r| <= |s|
  {
    if |s| == 0 then []
    else (if s[0].fitness == v then [s[0]] else []) + WithFitness(s[1..], v)
  }

  /** Filtering a sequence that starts with `x`. */
  lemma WithFitnessCons(x: Individual, s: seq<Individual>, v: real)
    ensures WithFitness([x] + s, v) == (if x.fitness == v then [x] else []) + WithFitness(s, v)
  {
    assert ([x] + s)[1..] == s;
  }

  /** Inserts `x` in front of the first element whose fitness is not below its
      own, so that `x` stays ahead of the equal-fitness elements behind it. */
  function Insert(x: Individual, s: seq<Individual>): (r: seq<Individual>)
    ensures |r| == |s| + 1
    ensures multiset(r) == multiset(s) + multiset{x}
  {
    if |s| == 0 then [x]
    else if x.fitness <= s[0].fitness then [x] + s
    else
      assert s == [s[0]] + s[1..];
      [s[0]] + Insert(x, s[1..])
  }

  /** Inserting into a sorted sequence keeps it sorted. */
  lemma {:induction false} InsertSorted(x: Individual, s: seq<Individual>)
    requires SortedByFitness(s)
    ensures SortedByFitness(Insert(x, s))
  {
    if |s| > 0 && x.fitness > s[0].fitness {
      InsertSorted(x, s[1..]);
      var rest := Insert(x, s[1..]);
      assert multiset(rest) == multiset(s[1..]) + multiset{x};
      forall e | e in rest ensures s[0].fitness <= e.fitness {
        assert e in multiset(rest);
        if e != x {
          assert e in multiset(s[1..]);
        }
      }
    }
  }

  /** Insertion puts `x` ahead of every equal-fitness element of `s` and leaves
      their order alone. */
  lemma {:induction false} InsertStable(x: Individual, s: seq<Individual>, v: real)
    ensures WithFitness(Insert(x, s), v) == (if x.fitness == v then [x] else []) + WithFitness(s, v)
  {
    if |s| == 0 {
      WithFitnessCons(x, [], v);
    } else if x.fitness <= s[0].fitness {
      WithFitnessCons(x, s, v);
    } else {
      InsertStable(x, s[1..], v);
      WithFitnessCons(s[0], Insert(x, s[1..]), v);
      WithFitnessCons(s[0], s[1..], v);
      assert s == [s[0]] + s[1..];
    }
  }

  /** Inserting `x` into a sorted arrangement of `tail` gives a sorted
      arrangement of `[x] + tail` with the same order among equals. */
  lemma InsertStep(x: Individual, rest: seq<Individual>, tail: seq<Individual>)
    requires SortedByFitness(rest)
    requires multiset(rest) == multiset(tail)
    requires forall v :: WithFitness(rest, v) == WithFitness(tail, v)
    ensures SortedByFitness(Insert(x, rest))
    ensures multiset(Insert(x, rest)) == multiset([x] + tail)
    ensures forall v :: WithFitness(Insert(x, rest), v) == WithFitness([x] + tail, v)
  {
    InsertSorted(x, rest);
    forall v ensures WithFitness(Insert(x, rest), v) == WithFitness([x] + tail, v) {
      InsertStable(x, rest, v);
      WithFitnessCons(x, tail, v);
    }
  }

  /** Python's `sorted(population, key=fitness)`: ascending and stable. The
      result is a permutation of the input, ordered by fitness, and keeps the
      input order among individuals of equal fitness. */
  function SortByFitness(s: seq<Individual>): (r: seq<Individual>)
    ensures |r| == |s|
    ensures multiset(r) == multiset(s)
    ensures SortedByFitness(r)
    ensures forall v :: WithFitness(r, v) == WithFitness(s, v)
  {
    if |s| == 0 then []
    else
      var rest := SortByFitness(s[1..]);
      InsertStep(s[0], rest, s[1..]);
      assert s == [s[0]] + s[1..];
      Insert(s[0], rest)
  }

  /** In a sorted sequence, nothing outside the first `n` elements has lower
      fitness than the element at `n - 1`. */
  lemma TailNotBelow(sorted: seq<Individual>, n: nat, x: Individual)
    requires SortedByFitness(sorted)
    requires 0 < n <= |sorted|
    requires x in multiset(sorted) - multiset(sorted[..n])
    ensures sorted[n - 1].fitness <= x.fitness
  {
    assert sorted == sorted[..n] + sorted[n..];
    assert multiset(sorted) == multiset(sorted[..n]) + multiset(sorted[n..]);
    assert x in multiset(sorted[n..]);
    var k :| 0 <= k < |sorted[n..]| && sorted[n..][k] == x;
    assert sorted[n + k] == x;
  }

  /** The first `n` elements of a sorted sequence are part of it, and the
      rest are no fitter than the last of them. */
  lemma PrefixNotAbove(sorted: seq<Individual>, n: nat)
    requires SortedByFitness(sorted)
    requires 0 < n <= |sorted|
    ensures multiset(sorted[..n]) <= multiset(sorted)
    ensures forall x :: x in multiset(sorted) - multiset(sorted[..n]) ==> sorted[n - 1].fitness <= x.fitness
  {
    assert sorted == sorted[..n] + sorted[n..];
    assert multiset(sorted) == multiset(sorted[..n]) + multiset(sorted[n..]);
    forall x | x in multiset(sorted) - multiset(sorted[..n])
      ensures sorted[n - 1].fitness <= x.fitness
    {
      TailNotBelow(sorted, n, x);
    }
  }

  /** `_choose_elite`: the NUMBER_ELITES fittest (lowest fitness) individuals,
      in ascending order of fitness. The source indexes past the end of a
      smaller population, so at least NUMBER_ELITES are required. */
  function ChooseElite(population: seq<Individual>): (elite: seq<Individual>)
    requires |population| >= NumberElites
    ensures |elite| == NumberElites
    ensures SortedByFitness(elite)
    ensures multiset(elite) <= multiset(population)
    ensures forall x :: x in multiset(population) - multiset(elite) ==> elite[|elite| - 1].fitness <= x.fitness
    ensures elite == SortByFitness(population)[..NumberElites]
  {
    var sorted := SortByFitness(population);
    PrefixNotAbove(sorted, NumberElites);
    var elite := sorted[..NumberElites];
    assert multiset(sorted) == multiset(population) && |elite| == NumberElites;
    assert elite[|elite| - 1] == sorted[NumberElites - 1];
    elite
  }
}

=== FILE: text.dfy ===
/** String helpers with the meaning Python gives them: `str.upper`, `str.strip`
    emptiness, `str.endswith`, `str(int)` and the indentation strings of the
    pretty-printer. */
module Text {

  /** Upper-case one character. ASCII `a`..`z` map to `A`..`Z`; the two
      lower-case letters whose upper case is a single ASCII letter (dotless i
      and long s) are included, so that comparisons against ASCII names behave
      as in Python. Every other character is kept. */
  function UpperChar(c: char): char
  {
    if 'a' <= c <= 'z' then (c as int - 32) as char
    else if c == '\U{0131}' then 'I'
    else if c == '\U{017F}' then 'S'
    else c
  }

  /** `s.upper()`, character by character. */
  function ToUpper(s: string): (r: string)
    ensures |r| == |s|
    ensures forall i :: 0 <= i < |s| ==> r[i] == UpperChar(s[i])
  {
    if |s| == 0 then "" else [UpperChar(s[0])] + ToUpper(s[1..])
  }

  /** Upper-casing an upper-cased string changes nothing. */
  lemma ToUpperIdempotent(s: string)
    ensures ToUpper(ToUpper(s)) == ToUpper(s)
  {
  }

  /** The characters Python's `str.strip()` removes (`str.isspace`). */
  predicate IsSpace(c: char)
  {
    || '\U{9}' <= c <= '\U{D}'
    || '\U{1C}' <= c <= '\U{20}'
    || c == '\U{85}' || c == '\U{A0}' || c == '\U{1680}'
    || '\U{2000}' <= c <= '\U{200A}'
    || c == '\U{2028}' || c == '\U{2029}' || c == '\U{202F}'
    || c == '\U{205F}' || c == '\U{3000}'
  }

  /** `not s.strip()`: the string is empty or consists of whitespace only. */
  predicate IsBlank(s: string)
  {
    forall i :: 0 <= i < |s| ==> IsSpace(s[i])
  }

  /** `s.endswith(suffix)`. */
  predicate EndsWith(s: string, suffix: string)
  {
    |suffix| <= |s| && s[|s| - |suffix|..] == suffix
  }

  /** `s + suffix` ends with `suffix`. */
  lemma EndsWithAppended(s: string, suffix: string)
    ensures EndsWith(s + suffix, suffix)
  {
    assert (s + suffix)[|s|..] == suffix;
  }

  /** `"\n" + level * "    "`: a line break followed by four spaces per level. */
  function Indentation(level: nat): (r: string)
    ensures |r| == 1 + 4 * level
    ensures r[0] == '\n'
    ensures forall i :: 1 <= i < |r| ==> r[i] == ' '
  {
    "\n" + seq(4 * level, _ => ' ')
  }

  /** An indentation string is blank, so the pretty-printer treats it as
      something it may overwrite. */
  lemma IndentationIsBlank(level: nat)
    ensures IsBlank(Indentation(level))
  {
  }

  /** Appending one more indentation unit gives the next level. */
  lemma IndentationStep(level: nat)
    ensures Indentation(level) + "    " == Indentation(level + 1)
  {
    var a := Indentation(level) + "    ";
    var b := Indentation(level + 1);
    assert |a| == |b|;
    forall i | 0 <= i < |a| ensures a[i] == b[i] {
      if i < |Indentation(level)| {
      } else {
        assert a[i] == ' ';
      }
    }
  }

  /** The decimal digit character for `d`. */
  function DigitChar(d: nat): (c: char)
    requires d < 10
    ensures '0' <= c <= '9'
  {
    ('0' as int + d) as char
  }

  predicate IsDigit(c: char)
  {
    '0' <= c <= '9'
  }

  /** `str(n)` for a non-negative integer: its decimal digits, most significant
      first, with no leading zero. */
  function NatToString(n: nat): (s: string)
    ensures |s| >= 1
    ensures forall i :: 0 <= i < |s| ==> IsDigit(s[i])
    ensures |s| > 1 ==> s[0] != '0'
    decreases n
  {
    if n < 10 then [DigitChar(n)] else NatToString(n / 10) + [DigitChar(n % 10)]
  }

  /** Reads a string of decimal digits back as a number. */
  function ParseDigits(s: string): nat
    requires forall i :: 0 <= i < |s| ==> IsDigit(s[i])
  {
    if |s| == 0 then 0
    else
      assert IsDigit(s[|s| - 1]);
      ParseDigits(s[..|s| - 1]) * 10 + (s[|s| - 1] as int - '0' as int)
  }

  /** Reading `str(n)` back yields `n`. */
  lemma {:induction false} ParseNatToString(n: nat)
    ensures ParseDigits(NatToString(n)) == n
    decreases n
  {
    if n >= 10 {
      var s := NatToString(n);
      ParseNatToString(n / 10);
      assert s[..|s| - 1] == NatToString(n / 10);
    }
  }

  /** Different numbers have different decimal strings. */
  lemma NatToStringInjective(a: nat, b: nat)
    requires NatToString(a) == NatToString(b)
    ensures a == b
  {
    ParseNatToString(a);
    ParseNatToString(b);
  }

  /** `str(i)` for any integer: a minus sign precedes the digits of `-i`. */
  function IntToString(i: int): (s: string)
    ensures |s| >= 1
    ensures i < 0 <==> s[0] == '-'
  {
    if i < 0 then "-" + NatToString(-i) else NatToString(i)
  }
}

=== FILE: values.dfy ===
/** The dictionary values the scenario builders read (`dict.get` results):
    their Python truthiness, comparison with 0 and `str()` rendering. */
module Values {
  import opened Text

  /** A value found in (or missing from, `NoneV`) a Python dictionary. */
  datatype Value = NoneV | BoolV(b: bool) | IntV(i: int) | FloatV(f: real) | StrV(s: string)

  /** `str()` of a float; Python's shortest round-trip repr is not modelled,
      so it is a parameter. */
  type FloatFormat = real -> string

  /** `bool(v)`: `None`, `False`, zero and the empty string are false. */
  predicate Truthy(v: Value)
  {
    match v
    case NoneV => false
    case BoolV(b) => b
    case IntV(i) => i != 0
    case FloatV(f) => f != 0.0
    case StrV(s) => |s| > 0
  }

  /** `v == 0` (booleans compare as integers). */
  predicate EqualsZero(v: Value)
  {
    v == BoolV(false) || v == IntV(0) || v == FloatV(0.0)
  }

  predicate IsNumber(v: Value)
  {
    v.BoolV? || v.IntV? || v.FloatV?
  }

  /** A number is true exactly when it is not zero; `None` and strings are
      never equal to zero. */
  lemma TruthyNumbers(v: Value)
    ensures IsNumber(v) ==> (Truthy(v) <==> !EqualsZero(v))
    ensures !IsNumber(v) ==> !EqualsZero(v)
  {
  }

  /** `str(v)`. */
  function Str(v: Value, fmt: FloatFormat): string
  {
    match v
    case NoneV => "None"
    case BoolV(b) => if b then "True" else "False"
    case IntV(i) => IntToString(i)
    case FloatV(f) => fmt(f)
    case StrV(s) => s
  }

  /** `v / 2`: true division always yields a float. */
  function Half(v: Value): (r: Value)
    requires IsNumber(v)
    ensures r.FloatV?
    ensures v.IntV? ==> r.f * 2.0 == v.i as real
    ensures v.FloatV? ==> r.f * 2.0 == v.f
  {
    match v
    case BoolV(b) => FloatV(if b then 0.5 else 0.0)
    case IntV(i) => FloatV(i as real / 2.0)
    case FloatV(f) => FloatV(f / 2.0)
  }

  /** One ` key="value"` fragment of a tag string. */
  function Field(key: string, value: string): (r: string)
    ensures |r| == |key| + |value| + 4
    ensures r[0] == ' ' && r[|r| - 1] == '"'
  {
    " " + key + "=\"" + value + "\""
  }
}

=== FILE: xml_creator.dfy ===
/** The scenario writer: turns one road individual into an environment file
    and a criteria file, as the sequence of builder calls `build_xml` makes. */
module XmlCreator {
  import opened Base
  import opened Text
  import opened Values
  import opened XmlTree
  import opened CriteriaBuilder
  import EnvironmentBuilder

  type Segment = EnvironmentBuilder.Segment
  type Obstacle = EnvironmentBuilder.Obstacle

  /** An individual dictionary as `build_xml` reads it. */
  datatype Scenario = Scenario(
    obstacles: Option<seq<Obstacle>>,
    rightLanes: Value,
    leftLanes: Value,
    controlPoints: seq<Segment>,
    fileName: string,
    participants: seq<Participant>)

  /** The arguments of one `build_environment_xml` call. */
  datatype EnvironmentCall = EnvironmentCall(
    controlPoints: seq<Segment>,
    fileName: string,
    leftLanes: Value,
    rightLanes: Value,
    obstacles: Option<seq<Obstacle>>)

  /** Whether `build_environment_xml` adds obstacles: only for a present,
      non-empty list. */
  predicate AddsObstacles(e: EnvironmentCall)
  {
    e.obstacles.Some? && |e.obstacles.value| > 0
  }

  /** The builder state `build_environment_xml` saves: one lane with
      markings over the control points, then the obstacles container when
      there are obstacles. */
  function EnvironmentFor(e: EnvironmentCall, fmt: FloatFormat): (env: EnvironmentBuilder.Environment)
    ensures env.lanes.children == [EnvironmentBuilder.LaneElement(e.controlPoints, true, e.leftLanes, e.rightLanes, fmt)]
    ensures AddsObstacles(e) ==>
              env.extras == EnvironmentBuilder.AddObstacles(EnvironmentBuilder.NewEnvironment(), e.obstacles.value, fmt).extras
    ensures !AddsObstacles(e) ==> env.extras == []
  {
    var env := EnvironmentBuilder.AddLane(EnvironmentBuilder.NewEnvironment(), e.controlPoints, true, e.leftLanes, e.rightLanes, fmt);
    if AddsObstacles(e) then EnvironmentBuilder.AddObstacles(env, e.obstacles.value, fmt) else env
  }

  /** `build_environment_xml`: the saved file has one lane holding one
      segment per control point, with markings, and an obstacles container
      with one child per obstacle exactly when the list is present and not
      empty. */
  function BuildEnvironmentXml(e: EnvironmentCall, fmt: FloatFormat): (r: SavedXml)
    ensures r.fileName == e.fileName + EnvironmentBuilder.Suffix
    ensures |r.tree.children| == (if AddsObstacles(e) then 4 else 3)
    ensures AddsObstacles(e) ==>
              r.tree.children[3].tag == "obstacles" && |r.tree.children[3].children| == |e.obstacles.value|
    ensures var lanes := r.tree.children[2];
            && lanes.tag == "lanes" && |lanes.children| == 1
            && Lookup(lanes.children[0].attrib, "markings") == Some("true")
            && |lanes.children[0].children| == |e.controlPoints|
  {
    var env := EnvironmentFor(e, fmt);
    var r := EnvironmentBuilder.Save(env, e.fileName);
    var root := EnvironmentBuilder.Root(env);
    assert SameLayout(root, r.tree);
    assert SameLayout(root.children[2], r.tree.children[2]);
    assert SameLayout(root.children[2].children[0], r.tree.children[2].children[0]);
    assert AddsObstacles(e) ==> SameLayout(root.children[3], r.tree.children[3]);
    r
  }

  /** One `participant` element per car, in order. */
  function CarElements(participants: seq<Participant>, fmt: FloatFormat): seq<Element>
  {
    Map(p => ParticipantElement(p, fmt), participants)
  }

  /** One success position per point, all for the same participant, in
      order. */
  function SuccessElements(participantId: string, points: seq<SuccessPoint>, fmt: FloatFormat): seq<Element>
  {
    Map(p => NewElement(SuccessTag(participantId, p, fmt)), points)
  }

  /** `add_car` for each participant, in order. */
  function AddCars(b: Criteria, participants: seq<Participant>, fmt: FloatFormat): (r: Criteria)
    ensures r.participants.children == b.participants.children + CarElements(participants, fmt)
    ensures r.(participants := b.participants) == b
    decreases |participants|
  {
    if |participants| == 0 then b
    else
      var car := ParticipantElement(participants[0], fmt);
      var b1 := AddCar(b, participants[0], fmt);
      SnocParts(b1.participants.children, b.participants.children);
      ConcatAssoc(b.participants.children, [car], CarElements(participants[1..], fmt));
      AddCars(b1, participants[1..], fmt)
  }

  /** `add_success_point` for each point, all for the same participant. */
  function AddSuccessPoints(b: Criteria, participantId: string, points: seq<SuccessPoint>, fmt: FloatFormat): (r: Criteria)
    ensures r.success.children == b.success.children + SuccessElements(participantId, points, fmt)
    ensures r.(success := b.success) == b
    decreases |points|
  {
    if |points| == 0 then b
    else
      var b1 := AddSuccessPoint(b, participantId, points[0], fmt);
      ConcatAssoc(b.success.children, [NewElement(SuccessTag(participantId, points[0], fmt))],
                  SuccessElements(participantId, points[1..], fmt));
      AddSuccessPoints(b1, participantId, points[1..], fmt)
  }

  /** The arguments of one `build_criteria_xml` call. */
  datatype CriteriaCall = CriteriaCall(
    participants: seq<Participant>,
    ego: Participant,
    successPoints: seq<SuccessPoint>,
    vcPos: VcPos,
    scSpeed: Value,
    fileName: string,
    name: string,
    fps: Value,
    frequency: Value)

  /** The builder state after the root-level calls: name, environment,
      step rate and AI frequency. */
  function Header(c: CriteriaCall, fmt: FloatFormat): (b: Criteria)
    ensures b.environment == TextElement("environment", WithEnvironmentSuffix(c.fileName))
    ensures b.participants == NewElement("participants") && b.success == NewElement("success")
    ensures b.failure == NewElement("failure") && b.preconditions == NewElement("precondition")
    ensures b.extras == [TextElement("name", c.name), TextElement("stepsPerSecond", Str(c.fps, fmt)),
                         TextElement("aiFrequency", Str(c.frequency, fmt))]
  {
    AiFreq(StepsPerSecond(EnvironmentName(DefineName(NewCriteria(), c.name), c.fileName), c.fps, fmt), c.frequency, fmt)
  }

  /** The builder state `build_criteria_xml` saves: the header, then the
      cars, the success points, the failure conditions and the
      precondition. */
  function CriteriaFor(c: CriteriaCall, fmt: FloatFormat): (r: Criteria)
    ensures HoldsHeader(c, fmt, r)
    ensures |r.participants.children| == |c.participants| && |r.success.children| == |c.successPoints|
    ensures |r.failure.children| == 1 && |r.preconditions.children| == 1
  {
    var h := Header(c, fmt);
    var b2 := AddCars(h, c.participants, fmt);
    var b3 := AddSuccessPoints(b2, c.ego.id, c.successPoints, fmt);
    var b4 := AddFailureConditions(b3, c.ego.id, "offroad");
    assert b2.environment == h.environment && b2.extras == h.extras;
    assert b3.environment == b2.environment && b3.extras == b2.extras && b3.participants == b2.participants;
    assert b4.environment == b3.environment && b4.extras == b3.extras;
    assert b4.success == b3.success && b4.participants == b3.participants && b4.preconditions == b2.preconditions;
    AddPrecondition(b4, c.vcPos, c.scSpeed, fmt)
  }

  /** The builder state refers to the environment file and keeps the
      name, step rate and AI frequency the header calls set. */
  ghost predicate HoldsHeader(c: CriteriaCall, fmt: FloatFormat, b: Criteria)
  {
    && b.environment == TextElement("environment", WithEnvironmentSuffix(c.fileName))
    && b.extras == Header(c, fmt).extras
  }

  /** One car per participant, in order. */
  ghost predicate HoldsCars(c: CriteriaCall, fmt: FloatFormat, b: Criteria)
  {
    b.participants.children == CarElements(c.participants, fmt)
  }

  /** One success position per point, all for the ego car, in order. */
  ghost predicate HoldsSuccess(c: CriteriaCall, fmt: FloatFormat, b: Criteria)
  {
    b.success.children == SuccessElements(c.ego.id, c.successPoints, fmt)
  }

  /** Exactly one `or` failure: the ego car damaged or off the road. */
  ghost predicate HoldsFailure(c: CriteriaCall, b: Criteria)
  {
    b.failure.children == [Element("or", [], None, None,
                                   [NewElement(DamageTag(c.ego.id)), NewElement(LaneTag(c.ego.id, "offroad"))])]
  }

  /** Exactly one precondition: the given car near the given position. */
  ghost predicate HoldsPrecondition(c: CriteriaCall, fmt: FloatFormat, b: Criteria)
  {
    && |b.preconditions.children| == 1
    && var pos := b.preconditions.children[0];
    && pos.tag == "vcPosition"
    && Lookup(pos.attrib, "participant") == Some(c.vcPos.id)
    && Lookup(pos.attrib, "x") == Some(Str(c.vcPos.x, fmt))
    && Lookup(pos.attrib, "y") == Some(Str(c.vcPos.y, fmt))
    && Lookup(pos.attrib, "tolerance") == Some(Str(c.vcPos.tolerance, fmt))
  }

  /** The calls after `AddCars` leave the participants alone. */
  lemma LaterCallsKeepCars(c: CriteriaCall, fmt: FloatFormat, b: Criteria)
    ensures var b3 := AddSuccessPoints(b, c.ego.id, c.successPoints, fmt);
            AddPrecondition(AddFailureConditions(b3, c.ego.id, "offroad"), c.vcPos, c.scSpeed, fmt).participants
              == b.participants
  {
    var b3 := AddSuccessPoints(b, c.ego.id, c.successPoints, fmt);
    assert b3.participants == b.participants;
  }

  /** Cars added to a state without any hold exactly the calls' cars. */
  lemma CarsFromEmpty(c: CriteriaCall, fmt: FloatFormat, b: Criteria)
    requires b.participants.children == []
    ensures HoldsCars(c, fmt, AddCars(b, c.participants, fmt))
  {
    EmptyConcat(CarElements(c.participants, fmt));
  }

  /** The cars: only their own call touches them. */
  lemma CriteriaForCars(c: CriteriaCall, fmt: FloatFormat)
    ensures HoldsCars(c, fmt, CriteriaFor(c, fmt))
  {
    var h := Header(c, fmt);
    var b2 := AddCars(h, c.participants, fmt);
    CarsFromEmpty(c, fmt, h);
    LaterCallsKeepCars(c, fmt, b2);
  }

  /** Success points added to a state without any hold exactly the calls'
      points. */
  lemma SuccessFromEmpty(c: CriteriaCall, fmt: FloatFormat, b: Criteria)
    requires b.success.children == []
    ensures HoldsSuccess(c, fmt, AddSuccessPoints(b, c.ego.id, c.successPoints, fmt))
  {
    EmptyConcat(SuccessElements(c.ego.id, c.successPoints, fmt));
  }

  /** The success points: only their own call touches them. */
  lemma CriteriaForSuccess(c: CriteriaCall, fmt: FloatFormat)
    ensures HoldsSuccess(c, fmt, CriteriaFor(c, fmt))
  {
    var b2 := AddCars(Header(c, fmt), c.participants, fmt);
    SuccessFromEmpty(c, fmt, b2);
    var b3 := AddSuccessPoints(b2, c.ego.id, c.successPoints, fmt);
    var b4 := AddFailureConditions(b3, c.ego.id, "offroad");
    assert b4.success == b3.success;
  }

  /** The failure: one `or`, from an empty start. */
  lemma CriteriaForFailure(c: CriteriaCall, fmt: FloatFormat)
    ensures HoldsFailure(c, CriteriaFor(c, fmt))
  {
    var h := Header(c, fmt);
    var b2 := AddCars(h, c.participants, fmt);
    assert b2.failure == h.failure;
    var b3 := AddSuccessPoints(b2, c.ego.id, c.successPoints, fmt);
    assert b3.failure == b2.failure;
  }

  /** The precondition: one `vcPosition`, from an empty start. */
  lemma CriteriaForPrecondition(c: CriteriaCall, fmt: FloatFormat)
    ensures HoldsPrecondition(c, fmt, CriteriaFor(c, fmt))
  {
    var b3 := AddSuccessPoints(AddCars(Header(c, fmt), c.participants, fmt), c.ego.id, c.successPoints, fmt);
    var b4 := AddFailureConditions(b3, c.ego.id, "offroad");
    assert CriteriaFor(c, fmt) == AddPrecondition(b4, c.vcPos, c.scSpeed, fmt);
    assert |b4.preconditions.children| == 0;
  }

  /** Each element of the saved state as the calls left it: one car per
      participant in order, one success position per point for the ego car
      in order, exactly one `or` failure, exactly one precondition. */
  lemma CriteriaForContents(c: CriteriaCall, fmt: FloatFormat)
    ensures HoldsHeader(c, fmt, CriteriaFor(c, fmt))
    ensures HoldsCars(c, fmt, CriteriaFor(c, fmt))
    ensures HoldsSuccess(c, fmt, CriteriaFor(c, fmt))
    ensures HoldsFailure(c, CriteriaFor(c, fmt))
    ensures HoldsPrecondition(c, fmt, CriteriaFor(c, fmt))
  {
    CriteriaForCars(c, fmt);
    CriteriaForSuccess(c, fmt);
    CriteriaForFailure(c, fmt);
    CriteriaForPrecondition(c, fmt);
  }

  /** `build_criteria_xml`: the saved file is named after the file name with
      the criteria suffix, and its tree is the builder's tree with only
      whitespace texts and tails changed. */
  function BuildCriteriaXml(c: CriteriaCall, fmt: FloatFormat): (r: SavedXml)
    ensures r.fileName == c.fileName + CriteriaSuffix
    ensures SameLayout(Root(CriteriaFor(c, fmt)), r.tree)
  {
    Save(CriteriaFor(c, fmt), c.fileName)
  }

  /** A criteria tree whose first child names the environment file and
      whose last three are the name, step rate and AI frequency. */
  ghost predicate ShowsHeader(c: CriteriaCall, fmt: FloatFormat, t: Element)
  {
    && |t.children| == 10
    && t.children[0].text == Some(WithEnvironmentSuffix(c.fileName))
    && t.children[7].tag == "name" && t.children[7].text == Some(c.name)
    && t.children[8].tag == "stepsPerSecond" && t.children[8].text == Some(Str(c.fps, fmt))
    && t.children[9].tag == "aiFrequency" && t.children[9].text == Some(Str(c.frequency, fmt))
  }

  /** A criteria tree with one participant per car and one success
      position per point, each for the ego car. */
  ghost predicate ShowsCarsAndSuccess(c: CriteriaCall, fmt: FloatFormat, t: Element)
  {
    && |t.children| == 10
    && |t.children[3].children| == |c.participants|
    && |t.children[5].children| == |c.successPoints|
    && forall k :: 0 <= k < |c.successPoints| ==>
         t.children[5].children[k].tag == SuccessTag(c.ego.id, c.successPoints[k], fmt)
  }

  /** A criteria tree whose only failure is an `or` of the ego car's damage
      and its leaving the road. */
  ghost predicate ShowsFailure(c: CriteriaCall, t: Element)
  {
    && |t.children| == 10
    && |t.children[6].children| == 1 && t.children[6].children[0].tag == "or"
    && |t.children[6].children[0].children| == 2
    && t.children[6].children[0].children[0].tag == DamageTag(c.ego.id)
    && t.children[6].children[0].children[1].tag == LaneTag(c.ego.id, "offroad")
  }

  /** A criteria tree whose only precondition is the given car near the
      given position. */
  ghost predicate ShowsPrecondition(c: CriteriaCall, fmt: FloatFormat, t: Element)
  {
    && |t.children| == 10
    && |t.children[4].children| == 1 && t.children[4].children[0].tag == "vcPosition"
    && Lookup(t.children[4].children[0].attrib, "participant") == Some(c.vcPos.id)
    && Lookup(t.children[4].children[0].attrib, "x") == Some(Str(c.vcPos.x, fmt))
    && Lookup(t.children[4].children[0].attrib, "y") == Some(Str(c.vcPos.y, fmt))
    && Lookup(t.children[4].children[0].attrib, "tolerance") == Some(Str(c.vcPos.tolerance, fmt))
  }

  /** Everything the calls of `build_criteria_xml` put into the tree. */
  ghost predicate ShowsCriteria(c: CriteriaCall, fmt: FloatFormat, t: Element)
  {
    && ShowsHeader(c, fmt, t)
    && ShowsCarsAndSuccess(c, fmt, t)
    && ShowsFailure(c, t)
    && ShowsPrecondition(c, fmt, t)
  }

  /** The header part of `LaidOut`. */
  lemma LaidOutHeader(c: CriteriaCall, fmt: FloatFormat, b: Criteria, t: Element)
    requires SameLayout(Root(b), t) && HoldsHeader(c, fmt, b)
    ensures ShowsHeader(c, fmt, t)
  {
    var root := Root(b);
    SameLayoutChild(root, t, 0);
    SameLayoutChild(root, t, 7);
    SameLayoutChild(root, t, 8);
    SameLayoutChild(root, t, 9);
  }

  /** The cars and success part of `LaidOut`. */
  lemma LaidOutCarsAndSuccess(c: CriteriaCall, fmt: FloatFormat, b: Criteria, t: Element)
    requires SameLayout(Root(b), t) && |b.extras| == 3
    requires HoldsCars(c, fmt, b) && HoldsSuccess(c, fmt, b)
    ensures ShowsCarsAndSuccess(c, fmt, t)
  {
    var root := Root(b);
    SameLayoutChild(root, t, 3);
    SameLayoutChild(root, t, 5);
    forall k | 0 <= k < |c.successPoints|
      ensures t.children[5].children[k].tag == SuccessTag(c.ego.id, c.successPoints[k], fmt)
    {
      SameLayoutChild(b.success, t.children[5], k);
    }
  }

  /** The failure part of `LaidOut`. */
  lemma LaidOutFailure(c: CriteriaCall, b: Criteria, t: Element)
    requires SameLayout(Root(b), t) && |b.extras| == 3 && HoldsFailure(c, b)
    ensures ShowsFailure(c, t)
  {
    SameLayoutChild(Root(b), t, 6);
    SameLayoutChild(b.failure, t.children[6], 0);
    SameLayoutChild(b.failure.children[0], t.children[6].children[0], 0);
    SameLayoutChild(b.failure.children[0], t.children[6].children[0], 1);
  }

  /** The precondition part of `LaidOut`. */
  lemma LaidOutPrecondition(c: CriteriaCall, fmt: FloatFormat, b: Criteria, t: Element)
    requires SameLayout(Root(b), t) && |b.extras| == 3 && HoldsPrecondition(c, fmt, b)
    ensures ShowsPrecondition(c, fmt, t)
  {
    SameLayoutChild(Root(b), t, 4);
    SameLayoutChild(b.preconditions, t.children[4], 0);
  }

  /** A tree laid out like the root of a builder state in which the calls'
      contents hold shows those contents. */
  lemma LaidOut(c: CriteriaCall, fmt: FloatFormat, b: Criteria, t: Element)
    requires SameLayout(Root(b), t)
    requires HoldsHeader(c, fmt, b) && HoldsCars(c, fmt, b) && HoldsSuccess(c, fmt, b)
    requires HoldsFailure(c, b) && HoldsPrecondition(c, fmt, b)
    ensures ShowsCriteria(c, fmt, t)
  {
    LaidOutHeader(c, fmt, b, t);
    LaidOutCarsAndSuccess(c, fmt, b, t);
    LaidOutFailure(c, b, t);
    LaidOutPrecondition(c, fmt, b, t);
  }

  /** The saved criteria file refers to the environment file, lists one
      participant per car, one success position per point (all for the ego
      car), one `or` failure of the ego car leaving the road and one
      precondition, and ends with the name, step rate and AI frequency. */
  lemma CriteriaXmlContents(c: CriteriaCall, fmt: FloatFormat)
    ensures ShowsCriteria(c, fmt, BuildCriteriaXml(c, fmt).tree)
  {
    CriteriaForContents(c, fmt);
    LaidOut(c, fmt, CriteriaFor(c, fmt), BuildCriteriaXml(c, fmt).tree);
  }

  /** The first participant whose id is "ego". */
  function FindEgo(participants: seq<Participant>): (r: Option<nat>)
    ensures r.Some? ==> r.value < |participants| && participants[r.value].id == "ego"
    ensures r.Some? ==> forall j :: 0 <= j < r.value ==> participants[j].id != "ego"
    ensures r.None? <==> forall j :: 0 <= j < |participants| ==> participants[j].id != "ego"
  {
    if |participants| == 0 then None
    else if participants[0].id == "ego" then Some(0)
    else
      match FindEgo(participants[1..])
      case None => None
      case Some(i) => Some(i + 1)
  }

  /** What `build_xml` needs to proceed: a second control point, a numeric
      width on the last one and an ego car (otherwise it raises). */
  predicate Buildable(s: Scenario)
  {
    && |s.controlPoints| >= 2
    && IsNumber(s.controlPoints[|s.controlPoints| - 1].width)
    && FindEgo(s.participants).Some?
  }

  /** The stem both files of the individual at index `iterator` share. */
  function Stem(s: Scenario, index: nat): string
  {
    s.fileName + NatToString(index)
  }

  /** The ego car: the first participant whose id is "ego". */
  function Ego(s: Scenario): (ego: Participant)
    requires Buildable(s)
    ensures ego.id == "ego" && ego in s.participants
  {
    s.participants[FindEgo(s.participants).value]
  }

  /** The success point `build_xml` derives: the last control point, with
      half the road width there as tolerance. */
  function SuccessPointOf(s: Scenario): (p: SuccessPoint)
    requires Buildable(s)
    ensures var last := s.controlPoints[|s.controlPoints| - 1];
            && p.x == last.x && p.y == last.y
            && p.tolerance.FloatV?
            && (last.width.IntV? ==> p.tolerance.f * 2.0 == last.width.i as real)
            && (last.width.FloatV? ==> p.tolerance.f * 2.0 == last.width.f)
  {
    var last := s.controlPoints[|s.controlPoints| - 1];
    SuccessPoint(last.x, last.y, Half(last.width))
  }

  /** The arguments `build_xml` passes to `build_criteria_xml`: all cars, the
      ego car, the one success point, the precondition at control point 1
      with tolerance 3 for the ego car and speed bound 10, the fixed name,
      step rate and frequency. */
  function CriteriaCallOf(s: Scenario, index: nat): (c: CriteriaCall)
    requires Buildable(s)
    ensures c.fileName == Stem(s, index) && c.participants == s.participants && c.ego.id == "ego"
    ensures c.successPoints == [SuccessPointOf(s)]
    ensures c.vcPos == VcPos("ego", s.controlPoints[1].x, s.controlPoints[1].y, IntV(3)) && c.scSpeed == IntV(10)
  {
    var ego := Ego(s);
    CriteriaCall(s.participants, ego, [SuccessPointOf(s)], VcPos(ego.id, s.controlPoints[1].x, s.controlPoints[1].y, IntV(3)),
                 IntV(10), Stem(s, index), "Example Test", StrV("60"), StrV("6"))
  }

  /** The two builder calls `build_xml` makes for one individual: both
      under the same name `file_name + str(iterator)`, the environment with
      the individual's road and lanes, the criteria with its cars. */
  function XmlCalls(s: Scenario, index: nat): (calls: (EnvironmentCall, CriteriaCall))
    requires Buildable(s)
    ensures calls.0.fileName == calls.1.fileName == s.fileName + NatToString(index)
    ensures calls.0.controlPoints == s.controlPoints && calls.0.obstacles == s.obstacles
    ensures calls.0.leftLanes == s.leftLanes && calls.0.rightLanes == s.rightLanes
    ensures calls.1.participants == s.participants && calls.1.ego == Ego(s)
    ensures calls.1.successPoints == [SuccessPointOf(s)]
  {
    (EnvironmentCall(s.controlPoints, Stem(s, index), s.leftLanes, s.rightLanes, s.obstacles), CriteriaCallOf(s, index))
  }

  /** `build_xml`: the environment and criteria files of one individual. */
  function BuildXml(s: Scenario, index: nat, fmt: FloatFormat): (r: (SavedXml, SavedXml))
    requires Buildable(s)
    ensures r.0.fileName == Stem(s, index) + EnvironmentSuffix
    ensures r.1.fileName == Stem(s, index) + CriteriaSuffix
  {
    var calls := XmlCalls(s, index);
    (BuildEnvironmentXml(calls.0, fmt), BuildCriteriaXml(calls.1, fmt))
  }

  /** The stem ends in a digit, so the environment name the criteria file
      stores gets the suffix appended and names the environment file that
      is written next to it. */
  lemma StemGetsSuffix(s: Scenario, index: nat)
    ensures WithEnvironmentSuffix(Stem(s, index)) == Stem(s, index) + EnvironmentSuffix
  {
    var stem := Stem(s, index);
    var digits := NatToString(index);
    assert stem[|stem| - 1] == digits[|digits| - 1];
    assert IsDigit(stem[|stem| - 1]);
  }

  /** What a criteria tree showing the calls of one `build_xml` holds: a
      reference to the environment file written next to it; success at the
      last control point with half its width as tolerance, for the ego car;
      the precondition at control point 1 with tolerance 3 for the ego car. */
  ghost predicate WritesFor(s: Scenario, index: nat, fmt: FloatFormat, t: Element)
    requires Buildable(s)
  {
    && |t.children| == 10
    && t.children[0].text == Some(Stem(s, index) + EnvironmentSuffix)
    && |t.children[5].children| == 1
    && t.children[5].children[0].tag == SuccessTag("ego", SuccessPointOf(s), fmt)
    && |t.children[4].children| == 1
    && var pos := t.children[4].children[0];
    && Lookup(pos.attrib, "participant") == Some("ego")
    && Lookup(pos.attrib, "x") == Some(Str(s.controlPoints[1].x, fmt))
    && Lookup(pos.attrib, "y") == Some(Str(s.controlPoints[1].y, fmt))
    && Lookup(pos.attrib, "tolerance") == Some("3")
  }

  /** A tree showing the criteria calls `build_xml` makes holds what
      `WritesFor` says. */
  lemma ShowsWrites(s: Scenario, index: nat, fmt: FloatFormat, t: Element)
    requires Buildable(s) && ShowsCriteria(CriteriaCallOf(s, index), fmt, t)
    ensures WritesFor(s, index, fmt, t)
  {
    StemGetsSuffix(s, index);
  }

  /** What one `build_xml` call writes: the criteria file refers to the
      environment file written next to it and holds the success point and
      precondition `build_xml` derives. */
  lemma BuildXmlWrites(s: Scenario, index: nat, fmt: FloatFormat)
    requires Buildable(s)
    ensures var (env, crit) := BuildXml(s, index, fmt);
            && env.fileName == Stem(s, index) + EnvironmentSuffix
            && WritesFor(s, index, fmt, crit.tree)
  {
    var c := CriteriaCallOf(s, index);
    CriteriaXmlContents(c, fmt);
    ShowsWrites(s, index, fmt, BuildCriteriaXml(c, fmt).tree);
  }

  /** Two indices give two different environment files for the same base
      name. */
  lemma FileNamesDistinct(s: Scenario, t: Scenario, i: nat, j: nat)
    requires s.fileName == t.fileName && i != j
    ensures Stem(s, i) + EnvironmentSuffix != Stem(t, j) + EnvironmentSuffix
  {
    var a := Stem(s, i);
    var b := Stem(t, j);
    if a + EnvironmentSuffix == b + EnvironmentSuffix {
      assert a == (a + EnvironmentSuffix)[..|a|];
      assert b == (b + EnvironmentSuffix)[..|b|];
      var n := |s.fileName|;
      assert NatToString(i) == a[n..];
      assert NatToString(j) == b[n..];
      NatToStringInjective(i, j);
    }
  }

  /** `build_all_xml`: the `build_xml` calls, one per individual, in order,
      with its index as `iterator`; for a population sharing one base name,
      every environment file gets its own name. */
  method BuildAllXml(population: seq<Scenario>) returns (calls: seq<(EnvironmentCall, CriteriaCall)>)
    requires forall i :: 0 <= i < |population| ==> Buildable(population[i])
    ensures |calls| == |population|
    ensures forall i :: 0 <= i < |population| ==> calls[i] == XmlCalls(population[i], i)
    ensures (forall i, j :: 0 <= i < j < |population| ==> population[i].fileName == population[j].fileName) ==>
              forall i, j :: 0 <= i < j < |population| ==>
                calls[i].0.fileName + EnvironmentSuffix != calls[j].0.fileName + EnvironmentSuffix
  {
    calls := [];
    var index := 0;
    while index < |population|
      invariant 0 <= index <= |population|
      invariant |calls| == index
      invariant forall i :: 0 <= i < index ==> calls[i] == XmlCalls(population[i], i)
    {
      calls := calls + [XmlCalls(population[index], index)];
      index := index + 1;
    }
    if forall i, j :: 0 <= i < j < |population| ==> population[i].fileName == population[j].fileName {
      forall i, j | 0 <= i < j < |population|
        ensures calls[i].0.fileName + EnvironmentSuffix != calls[j].0.fileName + EnvironmentSuffix
      {
        FileNamesDistinct(population[i], population[j], i, j);
      }
    }
  }
}

=== FILE: xml_tree.dfy ===
/** An immutable model of the ElementTree elements the scenario builders
    assemble, and the recursive pretty-printer `indent` both builders share. */
module XmlTree {
  import opened Base
  import opened Text

  /** An element: tag, attributes in insertion order, text, tail and
      children. */
  datatype Element = Element(
    tag: string,
    attrib: seq<(string, string)>,
    text: Option<string>,
    tail: Option<string>,
    children: seq<Element>)

  /** The namespace attributes both file roots carry. */
  function SchemaAttributes(): seq<(string, string)>
  {
    [("xmlns", "http://drivebuild.com"),
     ("xmlns:xsi", "http://www.w3.org/2001/XMLSchema-instance"),
     ("xsi:schemaLocation", "http://drivebuild.com drivebuild.xsd")]
  }

  /** A file as `save_xml` would write it: its name and its (indented) tree. */
  datatype SavedXml = SavedXml(fileName: string, tree: Element)

  /** `Element(tag)`: no attributes, text, tail or children. */
  function NewElement(tag: string): Element
  {
    Element(tag, [], None, None, [])
  }

  /** `NewElement(tag)` with the given text. */
  function TextElement(tag: string, text: string): Element
  {
    Element(tag, [], Some(text), None, [])
  }

  /** `e.get(key)`. */
  function Lookup(attrib: seq<(string, string)>, key: string): Option<string>
  {
    if |attrib| == 0 then None
    else if attrib[0].0 == key then Some(attrib[0].1)
    else Lookup(attrib[1..], key)
  }

  /** Replaces the value of `key` in place, or appends the pair. */
  function Update(attrib: seq<(string, string)>, key: string, value: string): (r: seq<(string, string)>)
    ensures Lookup(r, key) == Some(value)
    ensures forall k :: k != key ==> Lookup(r, k) == Lookup(attrib, k)
  {
    if |attrib| == 0 then [(key, value)]
    else if attrib[0].0 == key then [(key, value)] + attrib[1..]
    else
      var rest := Update(attrib[1..], key, value);
      assert ([attrib[0]] + rest)[1..] == rest;
      [attrib[0]] + rest
  }

  /** `e.set(key, value)`: only that attribute changes. */
  function SetAttr(e: Element, key: string, value: string): (r: Element)
    ensures Lookup(r.attrib, key) == Some(value)
    ensures forall k :: k != key ==> Lookup(r.attrib, k) == Lookup(e.attrib, k)
    ensures r.(attrib := e.attrib) == e
  {
    e.(attrib := Update(e.attrib, key, value))
  }

  /** `SubElement(parent, ...)`: the child goes last. */
  function Append(parent: Element, child: Element): (r: Element)
    ensures |r.children| == |parent.children| + 1
    ensures r.children[..|parent.children|] == parent.children
    ensures r.children[|parent.children|] == child
    ensures r.(children := parent.children) == parent
  {
    parent.(children := parent.children + [child])
  }

  /** `not t or not t.strip()`: absent, empty or whitespace only. */
  predicate NeedsFill(t: Option<string>)
  {
    t.None? || IsBlank(t.value)
  }

  /** The pretty-printer's rule for one text or tail: a blank one is replaced,
      anything else is kept. */
  function FillWith(t: Option<string>, s: string): Option<string>
  {
    if NeedsFill(t) then Some(s) else t
  }

  /** Same tags, attributes and number of children everywhere, and the same
      text on every leaf. */
  ghost predicate SameLayout(a: Element, b: Element)
    decreases a
  {
    && a.tag == b.tag
    && a.attrib == b.attrib
    && |a.children| == |b.children|
    && (|a.children| == 0 ==> a.text == b.text)
    && forall k :: 0 <= k < |a.children| ==> SameLayout(a.children[k], b.children[k])
  }

  /** A child of a tree keeps its layout in the re-laid-out tree. */
  lemma SameLayoutChild(a: Element, b: Element, k: nat)
    requires SameLayout(a, b) && k < |a.children|
    ensures k < |b.children| && SameLayout(a.children[k], b.children[k])
  {
  }

  /** `indent(elem, level)`: an element with children gets blank text
      replaced by the next level's indentation and a blank tail replaced by its
      own; its children are indented one level deeper, after which a blank tail
      on the last child is reset to this level. A leaf below the top level gets
      a blank tail replaced; a leaf at level 0 is left alone. Only texts and
      tails change. */
  function Indent(e: Element, level: nat): (r: Element)
    ensures SameLayout(e, r)
    decreases e
  {
    var i := Indentation(level);
    if |e.children| > 0 then
      var n := |e.children|;
      var kids := seq(n, k requires 0 <= k < n =>
                        var c := Indent(e.children[k], level + 1);
                        if k == n - 1 then c.(tail := FillWith(c.tail, i)) else c);
      var r := e.(text := FillWith(e.text, i + "    "), tail := FillWith(e.tail, i), children := kids);
      assert forall k :: 0 <= k < n ==> SameLayout(e.children[k], kids[k]) by {
        forall k | 0 <= k < n ensures SameLayout(e.children[k], kids[k]) {
          var c := Indent(e.children[k], level + 1);
          assert c.(tail := FillWith(c.tail, i)).children == c.children;
        }
      }
      r
    else if level > 0 then e.(tail := FillWith(e.tail, i))
    else e
  }

  /** Text: a blank one on an element with children becomes the next
      level's indentation; a non-blank one is never touched. */
  lemma IndentText(e: Element, level: nat)
    ensures |e.children| > 0 && NeedsFill(e.text) ==> Indent(e, level).text == Some(Indentation(level + 1))
    ensures !NeedsFill(e.text) ==> Indent(e, level).text == e.text
  {
    IndentationStep(level);
  }

  /** Tail: a blank one on an element with children, or on a leaf below the
      top level, becomes this level's indentation; a non-blank one is never
      touched; a leaf at level 0 is returned unchanged. */
  lemma IndentTail(e: Element, level: nat)
    ensures (|e.children| > 0 || level > 0) && NeedsFill(e.tail) ==> Indent(e, level).tail == Some(Indentation(level))
    ensures !NeedsFill(e.tail) ==> Indent(e, level).tail == e.tail
    ensures |e.children| == 0 && level == 0 ==> Indent(e, level) == e
  {
  }

  /** The pass over an element leaves its children's tails as follows: the
      last child ends at the parent's level whenever its tail was blank
      (the recursive pass fills it with blank indentation, which the parent
      then resets), every other child at its own level. */
  lemma IndentChildTails(e: Element, level: nat, k: nat)
    requires k < |e.children|
    ensures var c := e.children[k];
            var want := if k == |e.children| - 1 then level else level + 1;
            Indent(e, level).children[k].tail == if NeedsFill(c.tail) then Some(Indentation(want)) else c.tail
  {
    var c := e.children[k];
    IndentTail(c, level + 1);
    IndentationIsBlank(level + 1);
    IndentationIsBlank(level);
  }

  /** Indenting an element with a different tail changes only the tail, by
      the tail rule alone. */
  lemma IndentWithTail(x: Element, t: Option<string>, level: nat)
    ensures Indent(x.(tail := t), level)
         == Indent(x, level).(tail := if |x.children| > 0 || level > 0 then FillWith(t, Indentation(level)) else t)
  {
  }

  /** Filling twice with the same string is filling once. */
  lemma FillWithIdempotent(t: Option<string>, s: string)
    ensures FillWith(FillWith(t, s), s) == FillWith(t, s)
  {
  }

  /** Pretty-printing an already pretty-printed tree changes nothing. */
  lemma {:induction false} IndentIdempotent(e: Element, level: nat)
    ensures Indent(Indent(e, level), level) == Indent(e, level)
    decreases e
  {
    var i := Indentation(level);
    var r := Indent(e, level);
    if |e.children| > 0 {
      var n := |e.children|;
      var r2 := Indent(r, level);
      assert |r.children| == n;
      forall k | 0 <= k < n
        ensures r2.children[k] == r.children[k]
      {
        var x := Indent(e.children[k], level + 1);
        IndentIdempotent(e.children[k], level + 1);
        if k == n - 1 {
          var t := FillWith(x.tail, i);
          assert r.children[k] == x.(tail := t);
          IndentWithTail(x, t, level + 1);
          assert Indent(r.children[k], level + 1) == x.(tail := FillWith(t, Indentation(level + 1)));
          IndentationIsBlank(level + 1);
          assert FillWith(FillWith(t, Indentation(level + 1)), i) == t;
        } else {
          assert r.children[k] == x;
        }
      }
      FillWithIdempotent(e.text, i + "    ");
      FillWithIdempotent(e.tail, i);
      assert r2.children == r.children;
    } else if level > 0 {
      FillWithIdempotent(e.tail, i);
    }
  }
}
